=== FILE: README.md ===
# snmp-lldp in Dafny

A model of the logic of snmp-lldp, a set of Python 2 scripts that map a network
by asking switches over SNMP for their LLDP neighbours. It covers:

- **Interface identity** (`lldptree.py` and the same methods of `device.py`'s
  `Device`):
  - interface names by number, falling back to the number;
  - the downward parent-interface search for sub-interfaces;
  - interface speeds scaled by a unit table;
  - the neighbour table from the LLDP walk, and the local port number taken
    from each LLDP tag;
  - the per-neighbour interface list.
- **Device info**: the standard OIDs are polled and the device family is read
  off the system description. That family's OIDs are then merged over the
  standard values.
- **The three crawlers**:
  - `lldptree.py`'s `branch`;
  - `lldp.py`'s `gettree` with its list/tree output choice;
  - `graph.py`'s `build_graph`, which turns a map of device records into edges.

  Each threads a `checked` list that only grows and never gains a duplicate.
  A non-empty neighbour name is crawled only if it is not in the list yet.
  A successful crawl is closed: every node it returns (every record it
  expands, for `graph.py`) has all its non-empty neighbour names in the final
  list, so no neighbour is appended without being crawled in turn. For
  `lldptree.py` this holds only with `--recurse`. Without it, a node's
  children are the bare neighbour names and the list is left as it was. A
  crawl that raises promises no closure.
  `lldp.py` and `graph.py` put the root into the list before crawling, so
  neither enters a name twice. `lldptree.py` never puts its root there, and
  it lists names before stripping their domains. It therefore re-enters its
  root once when a neighbour reports it (`Scenarios.LldpTreeRevisitsRoot`). It
  also crawls the same host twice when neighbours report it under two
  spellings, such as "sw1" and "sw1.example.com".
- **`getinfo.py`**: one record per input host name, in input order. Each record
  keeps the name as given and is polled under the name without its domain.

SNMP is not executed. It is the oracle datatype `Snmp.Agent`:

- DNS resolvability;
- the reachability probe;
- GET, which answers with a value or nothing;
- WALK, which answers with a sequence of (tag, value) varbinds.

The OID file is the `Snmp.Config` value. Python exceptions that escape the
modelled paths are `Wrappers.Result` failures: `IndexError`, `ValueError`,
`UnboundLocalError`, `AttributeError` and `TypeError`. The module-level
`checked` lists are explicit arguments and results. A crawl terminates because
of a ghost finite universe of system names (`Snmp.Closed`). `graph.py` uses the
keys of its device map as that universe.

`device.py` repeats `lldptree.py`'s interface functions as methods. Those
methods are modelled once, in module `Interfaces`:

- `getInterfaceName` (device.py:20-26) is `Interfaces.InterfaceName`;
- `getParentInterface` (device.py:46-59) is `Interfaces.ParentInterface`;
- `getInterfaceSpeed` (device.py:64-76) is `Interfaces.InterfaceSpeed`;
- `getNeighbours` (device.py:109-116) is `Interfaces.Neighbours`;
- `getNeighbourInterfaceInfo` (device.py:121-141) is
  `Interfaces.NeighbourInterfaceInfo` with `Interfaces.EntryFor`.

Only `getDeviceInfo` differs from `lldptree.py`. It has its own member,
`Device.FamilyInfo`.

`Scenarios` holds concrete runs:

- the parent search on a small interface table;
- both LLDP crawlers on two switches that list each other as neighbours;
- the device-family counterexample of the finding below.

## Model

| member | source | states |
|---|---|---|
| Snmp.Get | lldptree.py:55-75 | A GET answers only for a resolvable host and only with a non-empty value; an empty varbind counts as no answer |
| Snmp.Walk | lldptree.py:55-69 | A walk yields its varbinds exactly when the host resolves and the subtree is non-empty, otherwise nothing |
| Text.SplitJoin | lldptree.py:195 | `split` inverts joining: splitting separator-free parts joined by the separator gives back exactly those parts |
| Text.StripDomain | lldptree.py:219-220 | The stripped name is the longest '.'-free prefix of the host name; a name without '.' is unchanged |
| Text.ParseNatToString | lldptree.py:116 | The partner of `Text.ParseNat` (`int()` on an index) and `Text.NatToString` (`str` on a number): reading back the decimal text of any natural gives that natural |
| Text.Words | getinfo.py:106 | `split()` yields white-space-free, non-empty words whose concatenation is the input with all white space removed |
| Text.WordsUnwords | getinfo.py:106 | Splitting words joined by single spaces gives back exactly those words |
| Text.WordsSplitAt | getinfo.py:106 | Any white-space character splits the input: the words before it followed by the words after it. Runs of white space therefore separate words and never produce empty ones |
| Text.WordsOfWord | getinfo.py:106 | A run without white space is one word; with `Text.WordsSplitAt` this fixes `split()` on every input |
| Interfaces.InterfaceName | lldptree.py:85-91 | The agent's name for the interface when the GET answers, otherwise the index passed in, unchanged |
| Interfaces.InterfaceDescription | lldptree.py:96-102 | The description when the GET answers; `UnboundLocalError` exactly when it does not |
| Interfaces.SearchDown | lldptree.py:115-124 | A found parent lies below the start, within the step budget, and is named exactly the parent name. Every interface passed on the way has a name containing the parent name without being equal to it. The same holds for a nameless interface the search stops at |
| Interfaces.SearchDownStops | lldptree.py:115-121 | Completeness: the search stops at the first interface below the start that is the parent, or that has no name, provided everything passed before it bridges |
| Interfaces.ParentNumber | lldptree.py:111-124 | The result never exceeds the original number. It is smaller only for the nearest parent reached through bridging names, and stays the original only when no parent is reachable. `TypeError` exactly when a nameless interface is reached first |
| Interfaces.ParentInterface | device.py:46-59 | `ValueError` for an index that is not a number. A reached nameless interface gives `TypeError`. Success exactly when the index is a number and the search does not raise; then the parent's number as text, or the original index string when the search gave up |
| Interfaces.Divisor | lldptree.py:130-133 | The divisor is 10^9 for G, 10^6 for M, 10^3 for K and 1 for B, by upper-cased unit; any other unit gets 10^6 |
| Interfaces.DivisorProperties | device.py:66-68 | The unit is matched case-insensitively, and a unit outside the table behaves exactly like "M" |
| Interfaces.InterfaceSpeed | lldptree.py:129-141 | No value exactly when there is no answer. `ValueError` exactly when the answer is not a number. Otherwise the floor quotient: result × divisor ≤ bits < (result + 1) × divisor |
| Interfaces.Assign | lldptree.py:182 | Dict assignment keeps keys distinct, maps the key to the new value and leaves every other key's lookup unchanged |
| Interfaces.Collect | device.py:116 | The comprehension over the walk: keys distinct, each tag mapped to the last non-empty value walked for it, every entry a walked varbind with a non-empty value |
| Interfaces.Neighbours | lldptree.py:175-182 | `None` exactly when the walk is empty or the host does not resolve; otherwise the tag→name dict of the walk with empty names dropped |
| Interfaces.NeighbourNamesBounded | lldptree.py:179-182 | Every neighbour name lies in the finite universe of system names |
| Interfaces.Values | lldptree.py:236 | `neighbours.values()` in the dict's order, one value per entry |
| Interfaces.LocalPortIndex | lldptree.py:194-195 | `IndexError` exactly when the tag has no '.'; otherwise a '.'-free component of the tag |
| Interfaces.LocalPortIndexOfJoin | lldptree.py:194-195 | For a tag of two or more components the port index is exactly the second-to-last one |
| Interfaces.EntryFor | device.py:127-139 | The entry keeps the port's own name and the neighbour's name. Its speed is looked up at the parent interface when the port name has a '.', otherwise at the port itself. Failures are `IndexError`, `ValueError` or `TypeError` |
| Interfaces.EntryForSucceeds | lldptree.py:193-205 | An entry is produced exactly when the tag has a port number, the parent search (for a port name with a '.') does not raise, and the speed answer, if any, is a number |
| Interfaces.NeighbourInterfaceInfo | lldptree.py:187-207 | Success exactly when every neighbour's entry succeeds. Then there is one entry per neighbour, in dict order, each the entry of that neighbour |
| Interfaces.NeighbourInterfaceInfoFails | lldptree.py:192-205 | A failure is the exception raised by the first neighbour whose entry fails: every neighbour before it succeeds |
| Interfaces.InterfaceInfoOrFetch | lldptree.py:189-193 | A given dict is used as is; otherwise the neighbours are fetched, and `AttributeError` when there are none |
| DeviceInfo.Poll | lldptree.py:152-156 | A key is in the result exactly when its GET answers, and then holds that answer |
| DeviceInfo.Family | lldptree.py:157-159 | A family exists exactly when "sysdesc" answered. It is the first space-separated word of the description with every character lower-cased: same length, each character the lower-case form of the description's character at that position. It has no space and no upper-case letter |
| DeviceInfo.FamilyCategory | lldptree.py:161-163 | The second loop runs over the configured category of the family when the family is known and configured, and over nothing otherwise, including when no family was noted |
| DeviceInfo.HostCategory | lldptree.py:151-163 | The category polled for a host is the configured one named by the first word, lower-cased, of the host's "sysdesc" answer. It is empty when "sysdesc" does not answer or names no configured family |
| DeviceInfo.Info | lldptree.py:146-169 | A key is present exactly when its standard or family lookup answered. A family value wins over a standard one; any other key holds its standard answer |
| DeviceInfo.InfoAsWritten | lldptree.py:157 | With the identity test as written, the record holds exactly the standard keys that answered, each with its standard answer |
| DeviceInfo.InfoPollsFamily | lldptree.py:157-168 | When the description names a configured family, every answering key of that family is in the record with the family's value |
| DeviceInfo.PollStep | lldptree.py:152-156 | One loop iteration adds the key exactly when its GET answers, and nothing else changes |
| DeviceInfo.PollStandard | lldptree.py:151-160 | The first loop collects exactly the answering standard keys and notes the family of the description |
| DeviceInfo.PollOver | lldptree.py:163-168 | The second loop writes every answering family key over the standard values, and nothing else |
| DeviceInfo.GetDeviceInfo | lldptree.py:146-169 | The loop-by-loop procedure computes exactly `Info` |
| Device.FamilyInfo | device.py:79-103 | `getDeviceInfo` keeps only the family keys that answered, with their answers; the standard values written at line 89 are dropped at line 102 |
| Device.FamilyInfoWithinInfo | device.py:89-102 | lldptree.py's record is device.py's record laid over the standard values; they agree on every family key |
| Lldp.GetTree | lldp.py:68-94 | The node is the host. `checked` grows by exactly the tree's descendants in pre-order and gains no duplicate. No branch was in `checked` before. An unresolvable host or one without neighbours gives the bare node. Every node of the tree is crawled: for each resolvable node with a neighbour table, all its non-empty neighbour names are in the final `checked` |
| Lldp.GetTreeCrawlsNeighbours | lldp.py:79-93 | For a polled host, every non-empty neighbour name ends up in `checked`, and the node has branches exactly when one of those names was not in `checked` before |
| Lldp.Branches | lldp.py:83-93 | Every branch is a non-empty neighbour name that was not in `checked` before. Every non-empty name ends up in `checked`. There are branches exactly when some non-empty name was unchecked. `checked` grows by exactly the branches' pre-orders and gains no duplicate. Every node of every branch is crawled: its non-empty neighbour names are all in the final `checked` |
| Lldp.Fresh | lldp.py:86-91 | An unvisited neighbour gets the first branch, named after it. No branch was visited before, and every later non-empty name ends up in `checked`. Every node of the branches is crawled: its non-empty neighbour names are all in the final `checked` |
| Lldp.FreshCrawlsFirst | lldp.py:88-91 | The first branch is the crawl of the neighbour from `checked` with the neighbour appended; the remaining branches are the crawl of the remaining names from the `checked` that crawl left |
| Lldp.ForestCons | lldp.py:90-91 | A crawled subtree followed by its siblings extends `checked` by the subtree's pre-order, then the siblings' |
| Lldp.Run | lldp.py:101-105 | Tree output exactly when the command contains "tree". The tree's root is the host and its ids are distinct. The list starts with the host and has no duplicate |
| Lldp.ListIsPreorder | lldp.py:104-105 | The list output is exactly the tree output's ids in pre-order |
| LldpTree.Branch | lldptree.py:213-251 | An empty stripped name gives `None` and changes nothing. `checked` only grows, never gains a duplicate and is untouched without `--recurse`. The names it gains, stripped, are exactly the ids below the node, in pre-order. `children` appears only when non-empty. Only the interface table can raise. The crawl fails exactly when `--interfaces` is given and the table of the host, or of some name it appended, cannot be built (`LldpTree.TableBuilds`); without `--interfaces` it succeeds. With `--recurse`, every node of a successful crawl is crawled: each non-empty id's non-empty neighbour names are all in the final `checked` |
| LldpTree.BranchChildren | lldptree.py:230-251 | The interface list is attached exactly with `--interfaces` on a host that has neighbours, and it is `neighbour_interface_info` of the host's neighbour table. The bare neighbour names appear exactly without `--recurse` on such a host, and they are `neighbours.values()`. Without `--recurse`, a non-empty stripped name fails exactly when `--interfaces` is given and its table raises. With `--recurse` every non-empty neighbour name ends up in `checked`, and there are subtrees exactly when one of them was unchecked |
| LldpTree.BranchInfo | lldptree.py:226-228 | With `--info` the node carries the device info minus "id"; without it, nothing |
| LldpTree.Descend | lldptree.py:234-251 | With `--recurse` the children are never the bare names. There are subtrees exactly when some non-empty neighbour name was unchecked, and every non-empty neighbour name ends up in `checked`. `checked` grows by exactly the ids below the node, stripped. The interface list is attached exactly with `--interfaces`, and it is the neighbours' interface info. The crawl fails exactly when `--interfaces` is given and the table of the host or of some appended name cannot be built. Every node below is crawled: its non-empty neighbour names are all in the final `checked` |
| LldpTree.Finish | lldptree.py:248-251 | The interface list is attached exactly with `--interfaces`. It is the neighbours' interface info, and the crawl fails exactly when that info does |
| LldpTree.CrawlChildren | lldptree.py:236-244 | On success every non-empty name is in `checked`. The result is empty, with `checked` unchanged, exactly when every name is empty or already checked. `checked` grows by exactly the crawled subtrees' stripped ids and gains no duplicate. The crawl fails exactly when `--interfaces` is given and the table of some appended name cannot be built. Every node of the subtrees is crawled: its non-empty neighbour names are all in the final `checked` |
| LldpTree.CrawlFresh | lldptree.py:238-242 | The new neighbour is the first name appended to `checked`. On success the first child is `None` exactly when the name strips to nothing, otherwise named after the stripped name. Every later non-empty name ends up in `checked`. The crawl fails exactly when `--interfaces` is given and the table of some appended name cannot be built. Every node of the children is crawled: its non-empty neighbour names are all in the final `checked` |
| LldpTree.CrawlFreshCrawlsFirst | lldptree.py:240-242 | The first child is the crawl `branch(x)` from `checked` with `x` appended; a failure of that crawl is the result, and otherwise the siblings continue from the `checked` it left |
| LldpTree.CrawlAfter | lldptree.py:240-242 | After the new neighbour's crawl, that crawl's failure is the result with its `checked`. Otherwise its node is the first child, the neighbour stays the first name appended, and the later names and every node below end up crawled. The result fails exactly when `--interfaces` is given and the table of some appended name cannot be built |
| LldpTree.CrawlRest | lldptree.py:236-242 | The crawled child stays first, ahead of its siblings, whose crawls continue from the list it left: `checked` extends that list, and every remaining non-empty name ends up in it. A child crawled completely stays so, and so are the siblings. Given that the tables of the names appended up to the child's end build, the result fails exactly when `--interfaces` is given and the table of some later appended name cannot be built |
| LldpTree.ChildStep | lldptree.py:240-242 | What one child's crawl appended, stripped, is its own id and descendants, followed by the siblings' |
| Graph.EdgeFor | graph.py:99-101 | The edge runs from the record's sysname to the neighbour and is bold exactly when the speed exceeds 100 |
| Graph.BuildGraph | graph.py:73-103 | An empty map or a checked root changes nothing. Otherwise the root is appended first. The new edges' targets are exactly the names appended after it, in order, and `checked` gains no duplicate. Every new edge is `EdgeFor` of some record and one of its interfaces. Every name appended is crawled: when it has a record with an "if" list, all that list's neighbours are in the final `checked` |
| Graph.BuildGraphFollowsRoot | graph.py:85-103 | A fresh root without a record holding an "if" list is only appended. With one, every interface's neighbour ends up in `checked`, edges are added exactly when one of them was unchecked, and the first new edge is `EdgeFor` of the root's record and one of its interfaces |
| Graph.AddEdges | graph.py:94-103 | Over the root's interfaces, the new edges' targets are exactly the names appended to `checked`. Every remaining interface's neighbour ends up in `checked`, and every new edge is drawn from some record. Every name appended is crawled: a record with an "if" list has all its neighbours in the final `checked` |
| Graph.AddEdgesFirstEdge | graph.py:94-102 | The loop adds edges exactly when one of the remaining neighbours is unchecked, and the first one is `EdgeFor` of the record and one of those interfaces |
| Graph.Follow | graph.py:97-103 | For an unchecked neighbour the edge to it is added first. It and every later interface's neighbour end up in `checked`, and every name appended is crawled: a record with an "if" list has all its neighbours in the final `checked` |
| Graph.FollowCrawlsNeighbour | graph.py:98-103 | After the edge to an unchecked neighbour, the loop goes on with the next interface from exactly the graph that the crawl of that neighbour left |
| Graph.FollowRest | graph.py:95-103 | Once the neighbour's crawl is done, the loop over the later interfaces keeps its edge first, keeps the targets in step with the names appended, and leaves every name appended crawled |
| Graph.EdgeStep | graph.py:99-103 | An edge's target is the first name the crawl behind it appends |
| Graph.PendingShrinks | graph.py:81-85 | Growing `checked` never enlarges the set of unexpanded devices, and checking one of them shrinks it |
| Graph.EdgesReachUnchecked | graph.py:81-103 | No two new edges share a target, and none points at the root or at a name checked before |
| GetInfo.Record | getinfo.py:62-77 | "sysname" is the name as given. An unreachable stripped host gives exactly that one-key record. Otherwise the device info is merged over it, and a device "sysname" wins |
| GetInfo.PollHosts | getinfo.py:108-109 | One record per input host, in input order, each that host's record |
| GetInfo.HostList | getinfo.py:102-106 | The parsed list when the input is JSON. Otherwise it is `Text.Words` of the text, which is `str.split()`: white-space-free words that together hold all its non-space characters |
| GetInfo.HostListSplits | getinfo.py:102-106 | Without JSON, a white-space character splits the host list in two, a run without white space is one host, and hosts joined by spaces come back unchanged |
| Scenarios.ParentSearchExamples | lldptree.py:111-124 | From interface 5 of a small table: the parent found one or two steps down, the search given up at an unrelated name, and stopped by a nameless interface |
| Scenarios.LldpCycle | lldp.py:86-105 | Two switches that list each other: from A, B is crawled once, A is not re-entered, and the list output is A, B |
| Scenarios.LldpTreeRevisitsRoot | lldptree.py:213-246 | lldptree.py never checks its root: from A the crawl reaches B and re-enters A once before stopping |
| Scenarios.FamilyIgnoredAsWritten | lldptree.py:157-168 | The identity test loses the "cisco" family's key that the equality test finds |

## Left out

- The SNMP transport (net-snmp, `snmp/snmp.py`, DNS) is replaced by the oracles of `Snmp.Agent`, so its own defects are not modelled. One example: `Connection.walk` calls an undefined `get`.
- `graph/lldpgraph.py`, `snmp/snmptest.py` and `devicetest.py` are not part of this model. They cover rendering and live-agent scripts.
- Command-line parsing, logging, JSON output, file and stdin reading, and pydot rendering are left out. The `strip_domain_name` constant is fixed at its value, `True`.
- Parsing JSON input in getinfo.py is an oracle: `GetInfo.HostList` takes the parse result as a parameter.
- Interfaces.SearchDown: the source's downward search has no bound. The model gives it a step budget, `Env.searchFuel`. This is a modelling addition, and running out of steps counts as giving up.
- Crawler termination rests on `Snmp.Closed`: every LLDP name lies in a finite set `u`. A network that reports unboundedly many names is outside the model.
- LldpTree.Branch: a failure is tied to the tables that cannot be built, not to the exception that comes back. With `--recurse` the model does not say which descendant's exception is returned; for a single table, `Interfaces.NeighbourInterfaceInfoFails` names it.
- Text.ParseNat accepts only decimal digits. Python's `int()` also takes a sign and surrounding white space. LLDP tags never contain them, and neither do the `ifSpeed` gauge answers converted at lldptree.py:137, which the agent returns as unsigned decimal.
- Python 2 dicts iterate in hash order. The model's association lists iterate in insertion order. No stated property depends on the order beyond "the dict's order".
- Graph.EdgeFor: a record without a "speed" key (the source's default is 10) and one whose speed is JSON null are both `None`, and neither is bold. Speeds are integers, and JSON floats are not modelled.
- Graph.BuildGraph: takes the device map keyed by name. getinfo.py prints a list, which `devicelist.get` would reject. A record that is empty, and so falsy, has the same outcome as one without an "if" list.
- Device.FamilyInfo: device.py does not parse as written (the `def` is missing on `__init__` and `snmpConfig`, and line 51 is mis-indented). Its methods use `host` for `self`, and `self.info` is read before it is ever set. The model follows each method's evident logic.
- GetInfo.Record: getinfo.py passes `test=True`, which `snmpConfig` does not accept, and `snmpConfig` returns nothing. So, as written, every host gets the one-key record. The model takes the evident reachable/unreachable outcome as the predicate `GetInfo.Reachable`.
- Python 2 `int / int` on the non-negative speeds is floor division, the same as Dafny's `/` on naturals.
- The parent search follows the code where a name lookup fails: the fallback name is the number itself, the `in` test raises `TypeError`, and the model reports that error.
- There is no concurrency in the source; the hosts are polled in a sequential loop.

## Findings

| source | as written | input that shows it | evidently intended | confidence | as-written member | corrected member |
|---|---|---|---|---|---|---|
| lldptree.py:157 | `if key is 'sysdesc':` tests object identity. A key read from the JSON file is never the literal's object, so no family is noted and the family OIDs are never polled. device.py:90 repeats the test | An OID file whose "sysdesc" answers "Cisco IOS" and whose "cisco" family has an answering "vlan" key: the record lacks "vlan" | `key == 'sysdesc'`, so the family named by the description is polled | high; not executed | DeviceInfo.InfoAsWritten, Scenarios.FamilyIgnoredAsWritten | DeviceInfo.Info, DeviceInfo.InfoPollsFamily |

=== FILE: device.dfy ===
/** The `Device` class of device.py. Its interface methods are the same logic as
    lldptree.py's functions and are modelled once, in `Interfaces`; what differs
    is `getDeviceInfo`, which keeps only the family-specific values. */
module Device {
  import opened Wrappers
  import opened Snmp
  import DeviceInfo

  /** `Device.getDeviceInfo`: the standard values are written to `self.info`
      and then discarded when `self.info = r` replaces it, so the result holds
      the family-specific keys that answered, and nothing else. The standard
      poll still decides the family. */
  function FamilyInfo(a: Agent, host: string, cfg: Config): (r: map<string, string>)
    ensures forall k :: k in r <==>
      k in DeviceInfo.HostCategory(a, host, cfg) && Get(a, host, DeviceInfo.HostCategory(a, host, cfg)[k]).Some?
    ensures forall k :: k in r ==> Get(a, host, DeviceInfo.HostCategory(a, host, cfg)[k]) == Some(r[k])
  {
    DeviceInfo.Poll(a, host, DeviceInfo.HostCategory(a, host, cfg))
  }

  /** lldptree.py's record is device.py's record laid over the standard values:
      the two agree on every family key and differ only by the standard keys. */
  lemma FamilyInfoWithinInfo(a: Agent, host: string, cfg: Config)
    ensures DeviceInfo.Info(a, host, cfg) == DeviceInfo.Poll(a, host, cfg.standard) + FamilyInfo(a, host, cfg)
    ensures forall k :: k in FamilyInfo(a, host, cfg) ==> DeviceInfo.Info(a, host, cfg)[k] == FamilyInfo(a, host, cfg)[k]
  {
  }
}

=== FILE: deviceinfo.dfy ===
/** Device-info assembly (lldptree.py `get_device_info`): the standard OIDs,
    the device family read off the system description, then the family's own
    OIDs merged over the standard values. */
module DeviceInfo {
  import opened Wrappers
  import opened Text
  import opened Snmp

  /** Every key of an OID category whose GET answers, with its answer. */
  function Poll(a: Agent, host: string, category: map<string, string>): (r: map<string, string>)
    ensures forall k :: k in r <==> k in category && Get(a, host, category[k]).Some?
    ensures forall k :: k in r ==> Get(a, host, category[k]) == Some(r[k])
  {
    map k | k in category && Get(a, host, category[k]).Some? :: Get(a, host, category[k]).value
  }

  /** The device family: the first space-separated word of the system
      description, lower-cased; `None` without a description. */
  function Family(standard: map<string, string>): (r: Option<string>)
    ensures r.Some? <==> "sysdesc" in standard
    ensures r.Some? ==> ' ' !in r.value
    ensures r.Some? ==> forall i :: 0 <= i < |r.value| ==> !('A' <= r.value[i] <= 'Z')
    ensures r.Some? ==>
      var word := FirstField(standard["sysdesc"], ' ');
      |r.value| == |word| && standard["sysdesc"][..|word|] == word &&
      (|word| == |standard["sysdesc"]| || standard["sysdesc"][|word|] == ' ')
    ensures r.Some? ==> forall i :: 0 <= i < |r.value| ==> r.value[i] == LowerChar(standard["sysdesc"][i])
  {
    if "sysdesc" in standard then
      var word := FirstField(standard["sysdesc"], ' ');
      LowerIsLower(word);
      assert forall i :: 0 <= i < |word| ==> Lower(word)[i] != ' ';
      Some(Lower(word))
    else None
  }

  /** The family-specific OID category, or none when the family is unknown. */
  function FamilyCategory(cfg: Config, family: Option<string>): (r: map<string, string>)
    ensures family.Some? && family.value in cfg.device ==> r == cfg.device[family.value]
    ensures !(family.Some? && family.value in cfg.device) ==> r == map[]
  {
    if family.Some? && family.value in cfg.device then cfg.device[family.value] else map[]
  }

  /** The family OID category `get_device_info` consults for `host`: the
      category of the family the host's system description names, and none
      when the description does not answer or names no configured family. */
  function HostCategory(a: Agent, host: string, cfg: Config): (r: map<string, string>)
    ensures var desc := if "sysdesc" in cfg.standard then Get(a, host, cfg.standard["sysdesc"]) else None;
      desc.Some? && Lower(FirstField(desc.value, ' ')) in cfg.device ==> r == cfg.device[Lower(FirstField(desc.value, ' '))]
    ensures var desc := if "sysdesc" in cfg.standard then Get(a, host, cfg.standard["sysdesc"]) else None;
      !(desc.Some? && Lower(FirstField(desc.value, ' ')) in cfg.device) ==> r == map[]
  {
    FamilyCategory(cfg, Family(Poll(a, host, cfg.standard)))
  }

  /** `get_device_info(host)`: a key is present exactly when one of its
      lookups answered; a family value wins over a standard one. */
  function Info(a: Agent, host: string, cfg: Config): (r: map<string, string>)
    ensures forall k :: k in r <==>
      (k in cfg.standard && Get(a, host, cfg.standard[k]).Some?) ||
      (k in HostCategory(a, host, cfg) && Get(a, host, HostCategory(a, host, cfg)[k]).Some?)
    ensures forall k :: k in HostCategory(a, host, cfg) && Get(a, host, HostCategory(a, host, cfg)[k]).Some? ==>
      r[k] == Get(a, host, HostCategory(a, host, cfg)[k]).value
    ensures forall k :: k in r && !(k in HostCategory(a, host, cfg) && Get(a, host, HostCategory(a, host, cfg)[k]).Some?) ==>
      Get(a, host, cfg.standard[k]) == Some(r[k])
  {
    Poll(a, host, cfg.standard) + Poll(a, host, HostCategory(a, host, cfg))
  }

  /** `get_device_info` as the source writes it. The family is noted under
      `key is 'sysdesc'`, an identity test; a key read from the JSON file is a
      different object from the literal, so the test never holds, no family
      is noted, and only the standard keys are polled. */
  function InfoAsWritten(a: Agent, host: string, cfg: Config): (r: map<string, string>)
    ensures forall k :: k in r <==> k in cfg.standard && Get(a, host, cfg.standard[k]).Some?
    ensures forall k :: k in r ==> Get(a, host, cfg.standard[k]) == Some(r[k])
  {
    Poll(a, host, cfg.standard) + Poll(a, host, FamilyCategory(cfg, None))
  }

  /** With the equality test the family is found: when the system description
      names a configured family, every key of that family that answers is in
      the record with the family's value. */
  lemma InfoPollsFamily(a: Agent, host: string, cfg: Config, k: string)
    requires "sysdesc" in cfg.standard && Get(a, host, cfg.standard["sysdesc"]).Some?
    requires Lower(FirstField(Get(a, host, cfg.standard["sysdesc"]).value, ' ')) in cfg.device
    requires k in cfg.device[Lower(FirstField(Get(a, host, cfg.standard["sysdesc"]).value, ' '))]
    ensures var family := cfg.device[Lower(FirstField(Get(a, host, cfg.standard["sysdesc"]).value, ' '))];
      Get(a, host, family[k]).Some? ==> k in Info(a, host, cfg) && Info(a, host, cfg)[k] == Get(a, host, family[k]).value
  {
    var standard := Poll(a, host, cfg.standard);
    assert standard["sysdesc"] == Get(a, host, cfg.standard["sysdesc"]).value;
    assert HostCategory(a, host, cfg) == cfg.device[Lower(FirstField(Get(a, host, cfg.standard["sysdesc"]).value, ' '))];
  }

  /** One more key of a category polled: the partial result grows by that key
      exactly when its GET answers. */
  lemma PollStep(a: Agent, host: string, category: map<string, string>, todo: set<string>, key: string)
    requires key in todo && todo <= category.Keys
    ensures Get(a, host, category[key]).Some? ==>
      Poll(a, host, category - (todo - {key})) == Poll(a, host, category - todo)[key := Get(a, host, category[key]).value]
    ensures Get(a, host, category[key]).None? ==>
      Poll(a, host, category - (todo - {key})) == Poll(a, host, category - todo)
  {
    var before := Poll(a, host, category - todo);
    var after := Poll(a, host, category - (todo - {key}));
    if Get(a, host, category[key]).Some? {
      assert after == before[key := Get(a, host, category[key]).value];
    } else {
      assert after == before;
    }
  }

  /** The first loop of `get_device_info`: one GET per standard key, the
      family noted when the "sysdesc" key answers. */
  method PollStandard(a: Agent, host: string, cfg: Config) returns (r: map<string, string>, family: Option<string>)
    ensures r == Poll(a, host, cfg.standard)
    ensures family == Family(r)
  {
    r := map[];
    family := None;
    var todo := cfg.standard.Keys;
    assert cfg.standard - todo == map[];
    while todo != {}
      invariant todo <= cfg.standard.Keys
      invariant r == Poll(a, host, cfg.standard - todo)
      invariant family == Family(r)
      decreases todo
    {
      var key :| key in todo;
      PollStep(a, host, cfg.standard, todo, key);
      var ref := Get(a, host, cfg.standard[key]);
      if ref.Some? {
        r := r[key := ref.value];
        if key == "sysdesc" {
          family := Some(Lower(FirstField(ref.value, ' ')));
        }
      }
      todo := todo - {key};
    }
    assert cfg.standard - {} == cfg.standard;
  }

  lemma MergeUpdate(base: map<string, string>, m: map<string, string>, k: string, v: string)
    ensures base + m[k := v] == (base + m)[k := v]
  {
  }

  /** The second loop: one GET per key of `category`, each answer written over
      what `base` holds. */
  method PollOver(a: Agent, host: string, category: map<string, string>, base: map<string, string>) returns (r: map<string, string>)
    ensures r == base + Poll(a, host, category)
  {
    r := base;
    var todo := category.Keys;
    assert category - todo == map[];
    while todo != {}
      invariant todo <= category.Keys
      invariant r == base + Poll(a, host, category - todo)
      decreases todo
    {
      var key :| key in todo;
      PollStep(a, host, category, todo, key);
      var ref := Get(a, host, category[key]);
      if ref.Some? {
        MergeUpdate(base, Poll(a, host, category - todo), key, ref.value);
        r := r[key := ref.value];
      }
      todo := todo - {key};
    }
    assert category - {} == category;
  }

  /** `get_device_info(host)` as the source runs it: the two loops above, the
      second over the category of the family the first one found. It computes
      exactly `Info`. */
  method GetDeviceInfo(a: Agent, host: string, cfg: Config) returns (r: map<string, string>)
    ensures r == Info(a, host, cfg)
  {
    var standard, family := PollStandard(a, host, cfg);
    r := PollOver(a, host, FamilyCategory(cfg, family), standard);
  }
}

=== FILE: examples.dfy ===
/** Concrete scenarios: the parent-interface search on a small interface table
    and the crawlers on a two-switch cycle. */
module Scenarios {
  import opened Wrappers
  import opened Text
  import opened Snmp
  import opened Seqs
  import Interfaces
  import DeviceInfo
  import Lldp
  import LldpTree

  /** Interface 5 is "eth0.100", interface 4 is `four`, interface 3 is "eth0"
      and interface 2 has no name. */
  function Table(four: Option<string>): int -> Option<string>
  {
    (n: int) =>
      if n == 5 then Some("eth0.100") else if n == 4 then four else if n == 3 then Some("eth0")
      else if n == 2 then None else Some("lo")
  }

  /** From 5, looking for "eth0": found at 4; found further down at 3 past
      another sub-interface; given up at an unrelated name although 3 is
      "eth0"; and stopped by a nameless interface, which the source turns into
      a `TypeError`. */
  lemma ParentSearchExamples()
    ensures Interfaces.SearchDown(Table(Some("eth0")), "eth0", 5, 10) == Interfaces.Found(4)
    ensures Interfaces.SearchDown(Table(Some("eth0.200")), "eth0", 5, 10) == Interfaces.Found(3)
    ensures Interfaces.SearchDown(Table(Some("unrelated")), "eth0", 5, 10) == Interfaces.GaveUp
    ensures Interfaces.SearchDown(Table(None), "eth0", 5, 10) == Interfaces.Nameless(4)
  {
    assert "eth0"[3] == '0';
    MissingCharNotContained("unrelated", "eth0", '0');
    assert "eth0.200"[..4] == "eth0";
  }

  /** Two switches A and B that report each other as LLDP neighbours. */
  function CycleAgent(): Agent
  {
    Agent(
      (h: string) => true,
      (h: string) => true,
      (h: string, oid: string) => None,
      (h: string, oid: string) =>
        if h == "A" then [("lldp.3.1", "B")] else if h == "B" then [("lldp.7.1", "A")] else [])
  }

  function CycleEnv(): Env
  {
    Env(CycleAgent(), Config(map[], "name.", "desc.", "speed.", "lldp", map[]), 8)
  }

  lemma CycleClosed()
    ensures Closed(CycleEnv(), {"A", "B"})
  {
  }

  /** What the LLDP walk of each switch yields. */
  lemma CycleNeighbours()
    ensures Interfaces.Neighbours(CycleEnv().agent, "A", CycleEnv().cfg) == Some([("lldp.3.1", "B")])
    ensures Interfaces.Neighbours(CycleEnv().agent, "B", CycleEnv().cfg) == Some([("lldp.7.1", "A")])
    ensures Interfaces.Values([("lldp.3.1", "B")]) == ["B"]
    ensures Interfaces.Values([("lldp.7.1", "A")]) == ["A"]
  {
  }

  /** lldp.py, arriving at B with both switches visited: B is a leaf. */
  lemma LldpCycleAtB()
    ensures Lldp.GetTree(CycleEnv(), {"A", "B"}, "B", ["A", "B"]) == Lldp.Visit(Lldp.Tree("B", []), ["A", "B"])
  {
    CycleClosed();
    CycleNeighbours();
    var env := CycleEnv();
    assert Lldp.Branches(env, {"A", "B"}, [], ["A", "B"]) == Lldp.Visits([], ["A", "B"]);
    assert Lldp.Branches(env, {"A", "B"}, ["A"], ["A", "B"]) == Lldp.Visits([], ["A", "B"]);
  }

  /** lldp.py from A: B is crawled once and gets no child back to A; the list
      mode prints A then B. */
  lemma LldpCycle()
    ensures Lldp.GetTree(CycleEnv(), {"A", "B"}, "A", ["A"]) ==
      Lldp.Visit(Lldp.Tree("A", [Lldp.Tree("B", [])]), ["A", "B"])
  {
    CycleClosed();
    CycleNeighbours();
    LldpCycleAtB();
    var env := CycleEnv();
    assert ["A"] + ["B"] == ["A", "B"];
    assert Lldp.Branches(env, {"A", "B"}, [], ["A", "B"]) == Lldp.Visits([], ["A", "B"]);
    assert [Lldp.Tree("B", [])] + [] == [Lldp.Tree("B", [])];
    assert Lldp.Fresh(env, {"A", "B"}, "B", [], ["A"]) == Lldp.Visits([Lldp.Tree("B", [])], ["A", "B"]);
    assert Lldp.Branches(env, {"A", "B"}, ["B"], ["A"]) == Lldp.Visits([Lldp.Tree("B", [])], ["A", "B"]);
  }

  const Recurse := LldpTree.Options(false, true, false)
  const InnerA := LldpTree.Node("A", map[], LldpTree.NoChildren, None)
  const NodeB := LldpTree.Node("B", map[], LldpTree.Subtrees([Some(InnerA)]), None)

  /** lldptree.py, back at A after B: every neighbour of A is checked, so A is
      a leaf. */
  lemma LldpTreeBackAtA()
    ensures LldpTree.Branch(CycleEnv(), Recurse, {"A", "B"}, "A", ["B", "A"]) == LldpTree.Crawl(Success(Some(InnerA)), ["B", "A"])
  {
    CycleClosed();
    CycleNeighbours();
    var env := CycleEnv();
    assert StripDomain("A") == "A";
    assert LldpTree.CrawlChildren(env, Recurse, {"A", "B"}, [], ["B", "A"]) == LldpTree.Crawls(Success([]), ["B", "A"]);
    assert LldpTree.CrawlChildren(env, Recurse, {"A", "B"}, ["B"], ["B", "A"]) == LldpTree.Crawls(Success([]), ["B", "A"]);
    assert LldpTree.Descend(env, Recurse, {"A", "B"}, "A", map[], [("lldp.3.1", "B")], ["B", "A"]) == LldpTree.Crawl(Success(Some(InnerA)), ["B", "A"]);
  }

  /** After A's crawl under B there are no siblings left. */
  lemma LldpTreeRestOfB()
    ensures LldpTree.CrawlRest(CycleEnv(), Recurse, {"A", "B"}, "A", Some(InnerA), [], ["B"], ["B", "A"]) == LldpTree.Crawls(Success([Some(InnerA)]), ["B", "A"])
  {
    CycleClosed();
    var env := CycleEnv();
    var u := {"A", "B"};
    assert ["B"] + ["A"] == ["B", "A"];
    assert [Some(InnerA)] + [] == [Some(InnerA)];
    assert LldpTree.CrawlChildren(env, Recurse, u, [], ["B", "A"]) == LldpTree.Crawls(Success([]), ["B", "A"]);
  }

  /** lldptree.py at B: its neighbour A is not checked yet, so it is crawled. */
  lemma LldpTreeChildrenOfB()
    ensures LldpTree.CrawlChildren(CycleEnv(), Recurse, {"A", "B"}, ["A"], ["B"]) == LldpTree.Crawls(Success([Some(InnerA)]), ["B", "A"])
  {
    CycleClosed();
    LldpTreeBackAtA();
    LldpTreeRestOfB();
    var env := CycleEnv();
    var u := {"A", "B"};
    assert ["B"] + ["A"] == ["B", "A"];
    assert LldpTree.CrawlFresh(env, Recurse, u, "A", [], ["B"]) == LldpTree.Crawls(Success([Some(InnerA)]), ["B", "A"]);
  }

  lemma LldpTreeAtB()
    ensures LldpTree.Branch(CycleEnv(), Recurse, {"A", "B"}, "B", ["B"]) == LldpTree.Crawl(Success(Some(NodeB)), ["B", "A"])
  {
    CycleClosed();
    CycleNeighbours();
    LldpTreeChildrenOfB();
    var env := CycleEnv();
    assert StripDomain("B") == "B";
    assert LldpTree.Descend(env, Recurse, {"A", "B"}, "B", map[], [("lldp.7.1", "A")], ["B"]) == LldpTree.Crawl(Success(Some(NodeB)), ["B", "A"]);
  }

  /** lldptree.py at A, with nothing checked: B is crawled first. */
  lemma LldpTreeChildrenOfRoot()
    ensures LldpTree.CrawlChildren(CycleEnv(), Recurse, {"A", "B"}, ["B"], []) == LldpTree.Crawls(Success([Some(NodeB)]), ["B", "A"])
  {
    CycleClosed();
    LldpTreeAtB();
    LldpTreeRestOfRoot();
    var env := CycleEnv();
    var u := {"A", "B"};
    assert [] + ["B"] == ["B"];
    assert LldpTree.CrawlFresh(env, Recurse, u, "B", [], []) == LldpTree.Crawls(Success([Some(NodeB)]), ["B", "A"]);
  }

  /** B's crawl under A leaves both switches' neighbours checked. */
  lemma LldpTreeCycleCovered()
    ensures LldpTree.OptionIds(Some(NodeB)) == ["B", "A"]
    ensures LldpTree.AllCovered(CycleEnv(), ["B", "A"], ["B", "A"])
  {
    CycleNeighbours();
    assert LldpTree.NodeIds(InnerA) == ["A"];
    assert [Some(InnerA)][1..] == [];
    assert LldpTree.SubtreeIds([Some(InnerA)]) == ["A"];
    assert LldpTree.NodeIds(NodeB) == ["B"] + LldpTree.ChildIds(NodeB.children);
    assert LldpTree.Covered(CycleEnv(), "B", ["B", "A"]);
    assert LldpTree.Covered(CycleEnv(), "A", ["B", "A"]);
  }

  /** After B's crawl under A there are no siblings left. */
  lemma LldpTreeRestOfRoot()
    ensures LldpTree.StripAll(["B", "A"][1..]) == LldpTree.DescendantIds(Some(NodeB))
    ensures LldpTree.AllCovered(CycleEnv(), LldpTree.OptionIds(Some(NodeB)), ["B", "A"])
    ensures LldpTree.CrawlRest(CycleEnv(), Recurse, {"A", "B"}, "B", Some(NodeB), [], [], ["B", "A"]) == LldpTree.Crawls(Success([Some(NodeB)]), ["B", "A"])
  {
    CycleClosed();
    var env := CycleEnv();
    var u := {"A", "B"};
    assert StripDomain("A") == "A";
    assert ["B", "A"][1..] == ["A"];
    assert LldpTree.StripAll(["A"]) == ["A"];
    assert LldpTree.NodeIds(InnerA) == ["A"];
    assert [Some(InnerA)][1..] == [];
    assert LldpTree.SubtreeIds([Some(InnerA)]) == ["A"];
    assert [] + ["B"] == ["B"];
    assert [Some(NodeB)] + [] == [Some(NodeB)];
    LldpTreeCycleCovered();
    assert LldpTree.CrawlChildren(env, Recurse, u, [], ["B", "A"]) == LldpTree.Crawls(Success([]), ["B", "A"]);
  }

  /** lldptree.py never marks its root as visited: from A the crawl goes to B
      and back into A once, and stops there because B is then checked. */
  lemma LldpTreeRevisitsRoot()
    ensures LldpTree.Branch(CycleEnv(), Recurse, {"A", "B"}, "A", []) ==
      LldpTree.Crawl(Success(Some(LldpTree.Node("A", map[], LldpTree.Subtrees([Some(NodeB)]), None))), ["B", "A"])
  {
    CycleClosed();
    CycleNeighbours();
    LldpTreeChildrenOfRoot();
    var env := CycleEnv();
    assert StripDomain("A") == "A";
    assert LldpTree.Descend(env, Recurse, {"A", "B"}, "A", map[], [("lldp.3.1", "B")], []) ==
      LldpTree.Crawl(Success(Some(LldpTree.Node("A", map[], LldpTree.Subtrees([Some(NodeB)]), None))), ["B", "A"]);
  }

  /** A switch whose system description starts with "Cisco", and a
      configuration with a "cisco" family holding a "vlan" key. */
  function CiscoAgent(): Agent
  {
    Agent(
      (h: string) => true,
      (h: string) => true,
      (h: string, oid: string) => if oid == "sys.1" then Some("Cisco IOS") else if oid == "vlan.1" then Some("7") else None,
      (h: string, oid: string) => [])
  }

  function CiscoConfig(): Config
  {
    Config(map["sysdesc" := "sys.1"], "name.", "desc.", "speed.", "lldp", map["cisco" := map["vlan" := "vlan.1"]])
  }

  lemma CiscoWord()
    ensures FirstField("Cisco IOS", ' ') == "Cisco"
  {
    assert "Cisco IOS" == "Cisco" + [' '] + "IOS";
    FirstFieldOfWord("Cisco", ' ', "IOS");
  }

  lemma CiscoFamily()
    ensures Lower(FirstField("Cisco IOS", ' ')) == "cisco"
  {
    CiscoWord();
    var l := Lower("Cisco");
    assert l[0] == LowerChar('C') == 'c';
    assert l[1..] == "isco";
  }

  /** The identity test loses the family: the record as written has no
      "vlan" key, the intended one has it. */
  lemma FamilyIgnoredAsWritten()
    ensures "vlan" !in DeviceInfo.InfoAsWritten(CiscoAgent(), "sw", CiscoConfig())
    ensures "vlan" in DeviceInfo.Info(CiscoAgent(), "sw", CiscoConfig())
  {
    CiscoFamily();
    assert Get(CiscoAgent(), "sw", "vlan.1") == Some("7");
    DeviceInfo.InfoPollsFamily(CiscoAgent(), "sw", CiscoConfig(), "vlan");
  }
}

=== FILE: getinfo.dfy ===
/** getinfo.py: one device record per input host name. */
module GetInfo {
  import opened Wrappers
  import opened Text
  import opened Snmp
  import Device

  /** The outcome of `snmpConfig(..., test=True)`: the session opens (the name
      resolves) and the agent answers the reachability probe. */
  predicate Reachable(a: Agent, host: string)
  {
    Configures(a, host) && a.responds(host)
  }

  /** `getinfo(hostname)`: the record starts as `{"sysname": hostname}` with
      the name as given; the device is polled under the name without its
      domain, and when it is reachable its info is merged in with `update`, a
      "sysname" from the device replacing the given one. */
  function Record(a: Agent, cfg: Config, hostname: string): (r: map<string, string>)
    ensures "sysname" in r
    ensures !Reachable(a, StripDomain(hostname)) ==> r == map["sysname" := hostname]
    ensures Reachable(a, StripDomain(hostname)) ==>
      var info := Device.FamilyInfo(a, StripDomain(hostname), cfg);
      && r.Keys == {"sysname"} + info.Keys
      && (forall k :: k in info ==> r[k] == info[k])
      && ("sysname" !in info ==> r["sysname"] == hostname)
  {
    var c := map["sysname" := hostname];
    var host := StripDomain(hostname);
    if Reachable(a, host) then c + Device.FamilyInfo(a, host, cfg) else c
  }

  /** The `__main__` loop: one record per host name, in input order. */
  method PollHosts(a: Agent, cfg: Config, hostnames: seq<string>) returns (records: seq<map<string, string>>)
    ensures |records| == |hostnames|
    ensures forall i :: 0 <= i < |hostnames| ==> records[i] == Record(a, cfg, hostnames[i])
    ensures forall i :: 0 <= i < |hostnames| ==> "sysname" in records[i]
  {
    records := [];
    var i := 0;
    while i < |hostnames|
      invariant 0 <= i <= |hostnames|
      invariant |records| == i
      invariant forall j :: 0 <= j < i ==> records[j] == Record(a, cfg, hostnames[j])
    {
      records := records + [Record(a, cfg, hostnames[i])];
      i := i + 1;
    }
  }

  /** The host list: the parsed JSON list when the input is JSON (the parse
      itself is outside the model), otherwise the input split on white space. */
  function HostList(text: string, parsed: Option<seq<string>>): (hosts: seq<string>)
    ensures parsed.Some? ==> hosts == parsed.value
    ensures parsed.None? ==> (forall i :: 0 <= i < |hosts| ==> IsWord(hosts[i])) && Concat(hosts) == NonSpace(text)
    ensures parsed.None? ==> hosts == Words(text)
  {
    match parsed
    case Some(list) => list
    case None => Words(text)
  }

  /** Without JSON the host list is `str.split()`: a white-space character
      separates two lists of hosts, a run without white space is one host, and
      hosts written one per line (or space-separated) come back unchanged. */
  lemma HostListSplits(a: string, c: char, b: string, w: string, ws: seq<string>)
    requires IsSpace(c)
    ensures HostList(a + [c] + b, None) == HostList(a, None) + HostList(b, None)
    ensures IsWord(w) ==> HostList(w, None) == [w]
    ensures (forall i :: 0 <= i < |ws| ==> IsWord(ws[i])) ==> HostList(Unwords(ws), None) == ws
  {
    WordsSplitAt(a, c, b);
    if IsWord(w) {
      WordsOfWord(w);
    }
    if forall i :: 0 <= i < |ws| ==> IsWord(ws[i]) {
      WordsUnwords(ws);
    }
  }
}

=== FILE: graph.dfy ===
/** graph.py: `build_graph`, which crawls the device records getinfo.py
    produced and emits one edge per newly reached neighbour. The module-level
    `checked` list and pydot graph are threaded through as a `Graph` value.
    Names are optional because `interface.get('neighbour')` may be `None`. */
module Graph {
  import opened Wrappers
  import opened Seqs

  /** An element of a record's "if" list: its "neighbour" and "speed" keys; a
      missing key and a JSON null are both `None`. */
  datatype IfRecord = IfRecord(neighbour: Option<string>, speed: Option<int>)

  /** A device record: its "sysname" and its "if" list. */
  datatype DeviceRecord = DeviceRecord(sysname: Option<string>, ifs: Option<seq<IfRecord>>)

  datatype Edge = Edge(source: Option<string>, target: Option<string>, bold: bool)

  /** The edges added so far, in order, and the `checked` list. */
  datatype Graph = Graph(edges: seq<Edge>, checked: seq<Option<string>>)

  /** The edge for one interface: drawn bold when its speed exceeds 100; a
      missing speed counts as 10 and a null one never compares greater. */
  function EdgeFor(device: DeviceRecord, ifr: IfRecord): (e: Edge)
    ensures e.source == device.sysname && e.target == ifr.neighbour
    ensures e.bold <==> ifr.speed.Some? && ifr.speed.value > 100
  {
    Edge(device.sysname, ifr.neighbour, ifr.speed.Some? && ifr.speed.value > 100)
  }

  function Targets(es: seq<Edge>): (ts: seq<Option<string>>)
    ensures |ts| == |es|
    ensures forall i :: 0 <= i < |es| ==> ts[i] == es[i].target
  {
    if |es| == 0 then [] else [es[0].target] + Targets(es[1..])
  }

  lemma {:induction false} TargetsAppend(a: seq<Edge>, b: seq<Edge>)
    ensures Targets(a + b) == Targets(a) + Targets(b)
    decreases |a|
  {
    if |a| == 0 {
      assert a + b == b;
    } else {
      assert (a + b)[1..] == a[1..] + b;
      TargetsAppend(a[1..], b);
    }
  }

  /** `e` is the edge `build_graph` draws for some interface of some record. */
  ghost predicate Drawn(devices: map<string, DeviceRecord>, e: Edge)
  {
    exists n, f :: n in devices && devices[n].ifs.Some? && f in devices[n].ifs.value && e == EdgeFor(devices[n], f)
  }

  /** Every edge of `es` is drawn for some interface of some record. */
  ghost predicate AllDrawn(devices: map<string, DeviceRecord>, es: seq<Edge>)
  {
    forall k :: 0 <= k < |es| ==> Drawn(devices, es[k])
  }

  /** The root has a record with an "if" list, so `build_graph` walks it. */
  predicate Expands(devices: map<string, DeviceRecord>, root: Option<string>)
  {
    root.Some? && root.value in devices && devices[root.value].ifs.Some?
  }

  /** When `name` is expanded, every neighbour on its "if" list is in `c`:
      the crawl has looked at all of them. */
  ghost predicate Covered(devices: map<string, DeviceRecord>, name: Option<string>, c: seq<Option<string>>)
  {
    Expands(devices, name) ==>
      forall j :: 0 <= j < |devices[name.value].ifs.value| ==> devices[name.value].ifs.value[j].neighbour in c
  }

  /** Every name of `names` is covered by `c`. */
  ghost predicate AllCovered(devices: map<string, DeviceRecord>, names: seq<Option<string>>, c: seq<Option<string>>)
  {
    forall k :: 0 <= k < |names| ==> Covered(devices, names[k], c)
  }

  /** Names covered when one crawl ended stay covered; with the names a later
      crawl covers they make one covered run. */
  lemma CoveredJoin(devices: map<string, DeviceRecord>, a: seq<Option<string>>, mid: seq<Option<string>>,
                    b: seq<Option<string>>, last: seq<Option<string>>)
    requires AllCovered(devices, a, mid) && mid <= last
    requires AllCovered(devices, b, last)
    ensures AllCovered(devices, a + b, last)
  {
    assert forall x :: x in mid ==> x in last;
    forall k | 0 <= k < |a + b| ensures Covered(devices, (a + b)[k], last) {
      if k < |a| {
        assert (a + b)[k] == a[k];
      } else {
        assert (a + b)[k] == b[k - |a|];
      }
    }
  }

  /** The device names not yet in `checked`: what the crawl can still expand. */
  ghost function Pending(devices: map<string, DeviceRecord>, checked: seq<Option<string>>): set<string>
  {
    set k | k in devices && Some(k) !in checked
  }

  lemma PendingShrinks(devices: map<string, DeviceRecord>, checked: seq<Option<string>>, later: seq<Option<string>>, k: string)
    requires checked <= later
    ensures |Pending(devices, later)| <= |Pending(devices, checked)|
    ensures k in devices && Some(k) !in checked && Some(k) in later ==>
      |Pending(devices, later)| < |Pending(devices, checked)|
  {
    assert Pending(devices, later) <= Pending(devices, checked) by {
      forall n | n in Pending(devices, later) ensures n in Pending(devices, checked) {
        assert forall i :: 0 <= i < |checked| ==> later[i] == checked[i];
      }
    }
    SubsetSize(Pending(devices, later), Pending(devices, checked));
    if k in devices && Some(k) !in checked && Some(k) in later {
      assert k in Pending(devices, checked) - Pending(devices, later);
      SubsetSize(Pending(devices, later), Pending(devices, checked) - {k});
    }
  }

  /** `build_graph(devicelist, root)`. An empty device map or an already
      checked root leaves everything unchanged. Otherwise the root is appended
      to `checked` before its record is looked up, and every edge added points
      at a name that was unchecked until then and that the crawl appends next:
      the edges' targets are exactly the names appended after the root, in
      order. */
  function BuildGraph(devices: map<string, DeviceRecord>, root: Option<string>, g: Graph): (r: Graph)
    ensures |devices| == 0 || root in g.checked ==> r == g
    ensures |devices| > 0 && root !in g.checked ==>
      |r.checked| > |g.checked| && r.checked[..|g.checked| + 1] == g.checked + [root]
    ensures g.checked <= r.checked && g.edges <= r.edges
    ensures |devices| > 0 && root !in g.checked ==> Targets(r.edges[|g.edges|..]) == r.checked[|g.checked| + 1..]
    ensures NoDup(g.checked) ==> NoDup(r.checked)
    ensures AllDrawn(devices, r.edges[|g.edges|..])
    ensures AllCovered(devices, r.checked[|g.checked|..], r.checked)
    decreases |Pending(devices, g.checked)|, 0
  {
    if |devices| == 0 || root in g.checked then g
    else
      var checked := g.checked + [root];
      AppendFresh(g.checked, root);
      assert (g.checked + [root])[|g.checked|..] == [root];
      if root.None? || root.value !in devices then Graph(g.edges, checked)
      else
        var device := devices[root.value];
        match device.ifs
        case None => Graph(g.edges, checked)
        case Some(ifs) =>
          PendingShrinks(devices, g.checked, checked, root.value);
          var r := AddEdges(devices, root.value, ifs, 0, Graph(g.edges, checked));
          PrefixTrans(g.checked, checked, r.checked);
          assert r.checked[..|g.checked| + 1] == checked;
          RootCovered(devices, root, g.checked, r.checked);
          r
  }

  /** The expanded root, once all its neighbours are checked, heads a
      covered run of the names appended after `checked`. */
  lemma RootCovered(devices: map<string, DeviceRecord>, root: Option<string>, checked: seq<Option<string>>, last: seq<Option<string>>)
    requires Expands(devices, root)
    requires checked + [root] <= last
    requires forall j :: 0 <= j < |devices[root.value].ifs.value| ==> devices[root.value].ifs.value[j].neighbour in last
    requires AllCovered(devices, last[|checked| + 1..], last)
    ensures AllCovered(devices, last[|checked|..], last)
  {
    assert last[|checked|..] == [root] + last[|checked| + 1..];
    CoveredJoin(devices, [root], last, last[|checked| + 1..], last);
  }

  /** What one `build_graph` call does with a fresh root. Without a record
      holding an "if" list it only checks the root. With one, every
      interface's neighbour ends up checked, edges are added exactly when one
      of those neighbours was not checked yet, and the first new edge is drawn
      from the root's record to one of them. */
  lemma BuildGraphFollowsRoot(devices: map<string, DeviceRecord>, root: Option<string>, g: Graph)
    requires |devices| > 0 && root !in g.checked
    ensures var r := BuildGraph(devices, root, g);
      !Expands(devices, root) ==> r == Graph(g.edges, g.checked + [root])
    ensures var r := BuildGraph(devices, root, g);
      Expands(devices, root) ==>
        var ifs := devices[root.value].ifs.value;
        && (forall j :: 0 <= j < |ifs| ==> ifs[j].neighbour in r.checked)
        && (|r.edges| > |g.edges| <==> exists j :: 0 <= j < |ifs| && ifs[j].neighbour !in g.checked + [root])
        && (|r.edges| > |g.edges| ==> exists j :: 0 <= j < |ifs| && r.edges[|g.edges|] == EdgeFor(devices[root.value], ifs[j]))
  {
    if Expands(devices, root) {
      AddEdgesFirstEdge(devices, root.value, devices[root.value].ifs.value, 0, Graph(g.edges, g.checked + [root]));
    }
  }

  /** The loop of `build_graph` over the root's interfaces, from the `i`-th on:
      a neighbour already in `checked` is skipped. */
  function AddEdges(devices: map<string, DeviceRecord>, name: string, ifs: seq<IfRecord>, i: nat, g: Graph): (r: Graph)
    requires |devices| > 0 && name in devices && devices[name].ifs == Some(ifs)
    requires i <= |ifs|
    ensures g.checked <= r.checked && g.edges <= r.edges
    ensures Targets(r.edges[|g.edges|..]) == r.checked[|g.checked|..]
    ensures NoDup(g.checked) ==> NoDup(r.checked)
    ensures forall j :: i <= j < |ifs| ==> ifs[j].neighbour in r.checked
    ensures AllDrawn(devices, r.edges[|g.edges|..])
    ensures AllCovered(devices, r.checked[|g.checked|..], r.checked)
    decreases |Pending(devices, g.checked)|, 1, |ifs| - i, 2
  {
    if i == |ifs| then g
    else if ifs[i].neighbour !in g.checked then Follow(devices, name, ifs, i, g)
    else AddEdges(devices, name, ifs, i + 1, g)
  }

  /** The loop adds edges exactly when one of the remaining neighbours is
      unchecked, and the first edge it adds is drawn from `name`'s record to
      one of them. */
  lemma {:induction false} AddEdgesFirstEdge(devices: map<string, DeviceRecord>, name: string, ifs: seq<IfRecord>, i: nat, g: Graph)
    requires |devices| > 0 && name in devices && devices[name].ifs == Some(ifs)
    requires i <= |ifs|
    ensures var r := AddEdges(devices, name, ifs, i, g);
      |r.edges| > |g.edges| <==> exists j :: i <= j < |ifs| && ifs[j].neighbour !in g.checked
    ensures var r := AddEdges(devices, name, ifs, i, g);
      |r.edges| > |g.edges| ==> exists j :: i <= j < |ifs| && r.edges[|g.edges|] == EdgeFor(devices[name], ifs[j])
    decreases |ifs| - i
  {
    if i < |ifs| && ifs[i].neighbour in g.checked {
      AddEdgesFirstEdge(devices, name, ifs, i + 1, g);
    }
  }

  /** An unchecked neighbour: add the edge to it, crawl it, then go on with
      the next interface. */
  function Follow(devices: map<string, DeviceRecord>, name: string, ifs: seq<IfRecord>, i: nat, g: Graph): (r: Graph)
    requires |devices| > 0 && name in devices && devices[name].ifs == Some(ifs)
    requires i < |ifs| && ifs[i].neighbour !in g.checked
    ensures g.checked <= r.checked && g.edges <= r.edges
    ensures |r.edges| > |g.edges| && r.edges[|g.edges|] == EdgeFor(devices[name], ifs[i])
    ensures Targets(r.edges[|g.edges|..]) == r.checked[|g.checked|..]
    ensures NoDup(g.checked) ==> NoDup(r.checked)
    ensures forall j :: i <= j < |ifs| ==> ifs[j].neighbour in r.checked
    ensures AllDrawn(devices, r.edges[|g.edges|..])
    ensures AllCovered(devices, r.checked[|g.checked|..], r.checked)
    decreases |Pending(devices, g.checked)|, 1, |ifs| - i, 1
  {
    var e := EdgeFor(devices[name], ifs[i]);
    var sub := BuildGraph(devices, ifs[i].neighbour, Graph(g.edges + [e], g.checked));
    PendingShrinks(devices, g.checked, sub.checked, name);
    FollowRest(devices, name, ifs, i, g, e, sub)
  }

  /** After the edge to an unchecked neighbour, the loop goes on from where
      the crawl of that neighbour left the graph. */
  lemma FollowCrawlsNeighbour(devices: map<string, DeviceRecord>, name: string, ifs: seq<IfRecord>, i: nat, g: Graph)
    requires |devices| > 0 && name in devices && devices[name].ifs == Some(ifs)
    requires i < |ifs| && ifs[i].neighbour !in g.checked
    ensures var sub := BuildGraph(devices, ifs[i].neighbour, Graph(g.edges + [EdgeFor(devices[name], ifs[i])], g.checked));
      Follow(devices, name, ifs, i, g) == AddEdges(devices, name, ifs, i + 1, sub)
  {
  }

  /** The rest of the loop once the neighbour's crawl took the graph from
      `g` plus its edge `e` to `sub`. */
  function FollowRest(devices: map<string, DeviceRecord>, name: string, ifs: seq<IfRecord>, i: nat, g: Graph, e: Edge, sub: Graph): (r: Graph)
    requires |devices| > 0 && name in devices && devices[name].ifs == Some(ifs) && i < |ifs|
    requires e == EdgeFor(devices[name], ifs[i])
    requires g.checked <= sub.checked && g.edges + [e] <= sub.edges
    requires |sub.checked| > |g.checked| && sub.checked[|g.checked|] == ifs[i].neighbour
    requires Targets(sub.edges[|g.edges| + 1..]) == sub.checked[|g.checked| + 1..]
    requires NoDup(g.checked) ==> NoDup(sub.checked)
    requires AllDrawn(devices, sub.edges[|g.edges| + 1..])
    requires AllCovered(devices, sub.checked[|g.checked|..], sub.checked)
    requires |Pending(devices, sub.checked)| <= |Pending(devices, g.checked)|
    ensures g.checked <= r.checked && g.edges <= r.edges
    ensures |r.edges| > |g.edges| && r.edges[|g.edges|] == EdgeFor(devices[name], ifs[i])
    ensures Targets(r.edges[|g.edges|..]) == r.checked[|g.checked|..]
    ensures NoDup(g.checked) ==> NoDup(r.checked)
    ensures forall j :: i <= j < |ifs| ==> ifs[j].neighbour in r.checked
    ensures AllDrawn(devices, r.edges[|g.edges|..])
    ensures AllCovered(devices, r.checked[|g.checked|..], r.checked)
    decreases |Pending(devices, g.checked)|, 1, |ifs| - i, 0
  {
    var r := AddEdges(devices, name, ifs, i + 1, sub);
    PrefixTrans(g.checked, sub.checked, r.checked);
    PrefixTrans(g.edges, g.edges + [e], sub.edges);
    PrefixTrans(g.edges + [e], sub.edges, r.edges);
    PrefixTrans(g.edges, sub.edges, r.edges);
    EdgeStep(g, e, sub, r);
    FollowStep(devices, name, ifs, i, g, e, sub, r);
    SliceSplit(sub.checked, r.checked, |g.checked|);
    CoveredJoin(devices, sub.checked[|g.checked|..], sub.checked, r.checked[|sub.checked|..], r.checked);
    r
  }

  /** One followed neighbour: it is checked from then on, and every edge
      added from its own edge on is drawn from some record. */
  lemma FollowStep(devices: map<string, DeviceRecord>, name: string, ifs: seq<IfRecord>, i: nat,
                   g: Graph, e: Edge, sub: Graph, r: Graph)
    requires name in devices && devices[name].ifs == Some(ifs) && i < |ifs|
    requires e == EdgeFor(devices[name], ifs[i])
    requires g.edges + [e] <= sub.edges && |sub.checked| > |g.checked| && sub.checked[|g.checked|] == ifs[i].neighbour
    requires sub.checked <= r.checked && sub.edges <= r.edges
    requires AllDrawn(devices, sub.edges[|g.edges| + 1..])
    requires AllDrawn(devices, r.edges[|sub.edges|..])
    ensures ifs[i].neighbour in r.checked
    ensures AllDrawn(devices, r.edges[|g.edges|..])
  {
    assert r.checked[|g.checked|] == sub.checked[|g.checked|];
    assert ifs[i] in devices[name].ifs.value;
    assert Drawn(devices, e);
    var added := r.edges[|g.edges|..];
    forall k | 0 <= k < |added| ensures Drawn(devices, added[k]) {
      if k == 0 {
        assert added[k] == (g.edges + [e])[|g.edges|];
      } else if |g.edges| + k < |sub.edges| {
        assert added[k] == sub.edges[|g.edges| + 1..][k - 1];
      } else {
        assert added[k] == r.edges[|sub.edges|..][|g.edges| + k - |sub.edges|];
      }
    }
  }

  /** The bookkeeping of one new edge: its target is the first name the
      crawl behind it appends. */
  lemma EdgeStep(g: Graph, e: Edge, sub: Graph, r: Graph)
    requires g.edges + [e] <= sub.edges && g.checked <= sub.checked
    requires |sub.checked| > |g.checked| && sub.checked[|g.checked|] == e.target
    requires Targets(sub.edges[|g.edges| + 1..]) == sub.checked[|g.checked| + 1..]
    requires sub.checked <= r.checked && sub.edges <= r.edges
    requires Targets(r.edges[|sub.edges|..]) == r.checked[|sub.checked|..]
    ensures Targets(r.edges[|g.edges|..]) == r.checked[|g.checked|..]
  {
    SliceSplit(sub.edges, r.edges, |g.edges|);
    SliceSplit(g.edges + [e], sub.edges, |g.edges|);
    assert (g.edges + [e])[|g.edges|..] == [e];
    TargetsAppend(sub.edges[|g.edges|..], r.edges[|sub.edges|..]);
    TargetsAppend([e], sub.edges[|g.edges| + 1..]);
    SliceSplit(sub.checked, r.checked, |g.checked|);
    assert sub.checked[|g.checked|..] == [e.target] + sub.checked[|g.checked| + 1..];
  }

  /** No edge ever points at the root or at a name checked before the crawl,
      and no two edges share a target: every device gets at most one incoming
      edge. */
  lemma EdgesReachUnchecked(devices: map<string, DeviceRecord>, root: Option<string>, g: Graph)
    requires NoDup(g.checked)
    ensures var r := BuildGraph(devices, root, g);
      var targets := Targets(r.edges[|g.edges|..]);
      NoDup(targets) && forall t :: t in targets ==> t !in g.checked && t != root
  {
    var r := BuildGraph(devices, root, g);
    if |devices| > 0 && root !in g.checked {
      var targets := Targets(r.edges[|g.edges|..]);
      assert r.checked == (g.checked + [root]) + targets;
      NoDupSplit(g.checked + [root], targets);
    }
  }
}

=== FILE: interfaces.dfy ===
/** Interface identity (lldptree.py and the same methods of device.py's `Device`):
    interface names, descriptions and speeds by interface number, the parent
    search for sub-interfaces, and the LLDP neighbour table with the local port
    each neighbour was seen on. */
module Interfaces {
  import opened Wrappers
  import opened Text
  import opened Snmp

  /** `get_interface_name`: the agent's name for the interface, or the index
      string itself when the agent has none. */
  function InterfaceName(a: Agent, host: string, cfg: Config, index: string): (name: string)
    ensures Get(a, host, cfg.interfaceNames + index).Some? ==> name == Get(a, host, cfg.interfaceNames + index).value
    ensures Get(a, host, cfg.interfaceNames + index).None? ==> name == index
  {
    match Get(a, host, cfg.interfaceNames + index)
    case Some(v) => v
    case None => index
  }

  /** `get_interface_desc`: the description, or `UnboundLocalError` because the
      local `desc` is only bound when the lookup succeeds. */
  function InterfaceDescription(a: Agent, host: string, cfg: Config, index: string): (r: Result<string>)
    ensures r.Success? <==> Get(a, host, cfg.interfaceDescs + index).Some?
    ensures r.Success? ==> r.value == Get(a, host, cfg.interfaceDescs + index).value && r.value != ""
    ensures r.Failure? ==> r.error == UnboundLocalError
  {
    match Get(a, host, cfg.interfaceDescs + index)
    case Some(v) => Success(v)
    case None => Failure(UnboundLocalError)
  }

  /** Interface names by interface number, as the parent search asks for them
      (`get_interface_name(host, n)` formats `n` with `str`); `None` where the
      agent has no name and the lookup hands back the number itself. */
  function NameAt(a: Agent, host: string, cfg: Config): int -> Option<string>
  {
    (n: int) => Get(a, host, cfg.interfaceNames + IntToString(n))
  }

  /** Every interface strictly between `lo` and `hi` has a name that contains
      `parent` without being equal to it: the search walks on past it. */
  ghost predicate Bridges(names: int -> Option<string>, parent: string, lo: int, hi: int)
  {
    forall j :: lo < j < hi ==> names(j).Some? && names(j).value != parent && Contains(names(j).value, parent)
  }

  /** How the downward search ends: at the parent's number, by giving up on a
      name that does not contain the parent's, or at an interface without a
      name, whose number then meets the substring test and raises. */
  datatype Search = Found(at: int) | GaveUp | Nameless(at: int)

  /** The loop of `get_parent_interface`, from interface `from` downwards for at
      most `fuel` steps. Running out of steps counts as giving up. */
  function SearchDown(names: int -> Option<string>, parent: string, from: int, fuel: nat): (r: Search)
    ensures r.Found? ==> from - fuel <= r.at < from && names(r.at) == Some(parent) && Bridges(names, parent, r.at, from)
    ensures r.Nameless? ==> from - fuel <= r.at < from && names(r.at).None? && Bridges(names, parent, r.at, from)
    decreases fuel
  {
    if fuel == 0 then GaveUp
    else
      var i := from - 1;
      match names(i)
      case None => Nameless(i)
      case Some(name) =>
        if name == parent then Found(i)
        else if !Contains(name, parent) then GaveUp
        else SearchDown(names, parent, i, fuel - 1)
  }

  /** The search stops at every parent, and at every nameless interface, that
      it can reach within its step budget. */
  lemma {:induction false} SearchDownStops(names: int -> Option<string>, parent: string, from: int, fuel: nat, i: int)
    requires from - fuel <= i < from
    requires Bridges(names, parent, i, from)
    ensures names(i) == Some(parent) ==> SearchDown(names, parent, from, fuel) == Found(i)
    ensures names(i).None? ==> SearchDown(names, parent, from, fuel) == Nameless(i)
    decreases fuel
  {
    if i < from - 1 {
      assert names(from - 1).Some? && names(from - 1).value != parent && Contains(names(from - 1).value, parent);
      SearchDownStops(names, parent, from - 1, fuel - 1, i);
    }
  }

  /** `get_parent_interface` on an interface number: the number of the parent,
      the original number when the search gives up, or `TypeError` when it
      meets an interface without a name first. */
  function ParentNumber(env: Env, host: string, index: nat, subname: string): (r: Result<int>)
    ensures r.Failure? ==> r.error == TypeError
    ensures r.Failure? <==> exists i ::
      && index - env.searchFuel <= i < index
      && NameAt(env.agent, host, env.cfg)(i).None?
      && Bridges(NameAt(env.agent, host, env.cfg), FirstField(subname, '.'), i, index)
    ensures r.Success? ==> r.value <= index
    ensures r.Success? && r.value < index ==>
      index - r.value <= env.searchFuel &&
      NameAt(env.agent, host, env.cfg)(r.value) == Some(FirstField(subname, '.')) &&
      Bridges(NameAt(env.agent, host, env.cfg), FirstField(subname, '.'), r.value, index)
    ensures r.Success? && r.value == index ==> forall i ::
      (index - env.searchFuel <= i < index && NameAt(env.agent, host, env.cfg)(i) == Some(FirstField(subname, '.'))) ==>
      !Bridges(NameAt(env.agent, host, env.cfg), FirstField(subname, '.'), i, index)
  {
    var names := NameAt(env.agent, host, env.cfg);
    var parent := FirstField(subname, '.');
    var s := SearchDown(names, parent, index, env.searchFuel);
    forall i | index - env.searchFuel <= i < index && Bridges(names, parent, i, index)
      ensures names(i) == Some(parent) ==> s == Found(i)
      ensures names(i).None? ==> s == Nameless(i)
    {
      SearchDownStops(names, parent, index, env.searchFuel, i);
    }
    match s
    case Found(i) => Success(i)
    case GaveUp => Success(index)
    case Nameless(_) => Failure(TypeError)
  }

  /** `get_parent_interface(host, interface, subname)` with the index as the
      string taken from the LLDP tag: `int()` raises `ValueError` on a
      non-number; a found parent comes back as a number, the fallback as the
      original string. */
  function ParentInterface(env: Env, host: string, index: string, subname: string): (r: Result<string>)
    ensures ParseNat(index).None? ==> r == Failure(ValueError)
    ensures ParseNat(index).Some? && ParentNumber(env, host, ParseNat(index).value, subname).Failure? ==>
      r == Failure(TypeError)
    ensures r.Success? <==> ParseNat(index).Some? && ParentNumber(env, host, ParseNat(index).value, subname).Success?
    ensures r.Success? ==>
      var n := ParseNat(index).value;
      var p := ParentNumber(env, host, n, subname).value;
      r.value == if p == n then index else IntToString(p)
  {
    match ParseNat(index)
    case None => Failure(ValueError)
    case Some(n) =>
      match ParentNumber(env, host, n, subname)
      case Failure(e) => Failure(e)
      case Success(p) => if p == n then Success(index) else Success(IntToString(p))
  }

  /** The divisor table of `get_interface_speed`, keyed by the upper-cased
      unit; an unknown unit falls back to megabits. */
  function Divisor(unit: string): (d: nat)
    ensures d > 0
    ensures Upper(unit) == "G" ==> d == 1000000000
    ensures Upper(unit) == "K" ==> d == 1000
    ensures Upper(unit) == "B" ==> d == 1
    ensures Upper(unit) != "G" && Upper(unit) != "K" && Upper(unit) != "B" ==> d == 1000000
  {
    var u := Upper(unit);
    if u == "G" then 1000000000
    else if u == "M" then 1000000
    else if u == "K" then 1000
    else if u == "B" then 1
    else 1000000
  }

  /** The unit is matched case-insensitively, and any unit outside the table
      behaves exactly like "M". */
  lemma DivisorProperties(unit: string)
    ensures Divisor(Lower(unit)) == Divisor(unit)
    ensures Upper(unit) !in {"G", "M", "K", "B"} ==> Divisor(unit) == Divisor("M")
  {
    UpperIgnoresCase(unit);
  }

  /** `get_interface_speed`: the raw bits per second, floor-divided by the
      unit's divisor (Python 2 `int / int`); `None` when the agent has no
      value, `ValueError` when the value is not a number. */
  function InterfaceSpeed(a: Agent, host: string, cfg: Config, index: string, unit: string): (r: Result<Option<nat>>)
    ensures r == Success(None) <==> Get(a, host, cfg.interfaceSpeeds + index).None?
    ensures r.Failure? <==>
      Get(a, host, cfg.interfaceSpeeds + index).Some? &&
      ParseNat(Get(a, host, cfg.interfaceSpeeds + index).value).None?
    ensures r.Failure? ==> r.error == ValueError
    ensures r.Success? && r.value.Some? ==>
      var raw := ParseNat(Get(a, host, cfg.interfaceSpeeds + index).value).value;
      r.value.value * Divisor(unit) <= raw < (r.value.value + 1) * Divisor(unit)
  {
    match Get(a, host, cfg.interfaceSpeeds + index)
    case None => Success(None)
    case Some(v) =>
      match ParseNat(v)
      case None => Failure(ValueError)
      case Some(bits) => Success(Some(bits / Divisor(unit)))
  }

  /** An association list with distinct keys: a Python dict. */
  ghost predicate KeysDistinct(m: seq<(string, string)>)
  {
    forall i, j :: 0 <= i < j < |m| ==> m[i].0 != m[j].0
  }

  /** `m[k]`, or `None` for a missing key. */
  function Lookup(m: seq<(string, string)>, k: string): Option<string>
  {
    if |m| == 0 then None else if m[0].0 == k then Some(m[0].1) else Lookup(m[1..], k)
  }

  /** `m[k] = v`. */
  function Assign(m: seq<(string, string)>, k: string, v: string): (r: seq<(string, string)>)
    requires KeysDistinct(m)
    ensures KeysDistinct(r)
    ensures Lookup(r, k) == Some(v)
    ensures forall k' :: k' != k ==> Lookup(r, k') == Lookup(m, k')
    ensures forall j :: 0 <= j < |r| ==> r[j] in m || r[j] == (k, v)
  {
    if |m| == 0 then [(k, v)]
    else if m[0].0 == k then [(k, v)] + m[1..]
    else
      var rest := Assign(m[1..], k, v);
      assert forall j :: 0 <= j < |rest| ==> rest[j].0 != m[0].0 by {
        forall j | 0 <= j < |rest| ensures rest[j].0 != m[0].0 {
          if rest[j] in m[1..] {
            var q :| 0 <= q < |m[1..]| && m[1..][q] == rest[j];
            assert m[q + 1] == rest[j];
          }
        }
      }
      [m[0]] + rest
  }

  /** The value the last walked varbind with tag `t` and a non-empty value
      carries: what a dict comprehension over the walk keeps for key `t`. */
  function LastNonEmpty(walk: seq<(string, string)>, t: string): Option<string>
  {
    if |walk| == 0 then None
    else if walk[|walk| - 1].0 == t && walk[|walk| - 1].1 != "" then Some(walk[|walk| - 1].1)
    else LastNonEmpty(walk[..|walk| - 1], t)
  }

  /** `{ x.tag: x.val for x in walk if x.val }`. */
  function Collect(walk: seq<(string, string)>): (r: seq<(string, string)>)
    ensures KeysDistinct(r)
    ensures forall t :: Lookup(r, t) == LastNonEmpty(walk, t)
    ensures forall j :: 0 <= j < |r| ==> r[j] in walk && r[j].1 != ""
  {
    if |walk| == 0 then []
    else
      var m := Collect(walk[..|walk| - 1]);
      var x := walk[|walk| - 1];
      if x.1 == "" then m else Assign(m, x.0, x.1)
  }

  /** `get_neighbours`: `None` when the walk of the remote system names returns
      nothing, otherwise the tag to neighbour-name dict, empty names dropped and
      a repeated tag keeping its last value. */
  function Neighbours(a: Agent, host: string, cfg: Config): (r: Option<seq<(string, string)>>)
    ensures r.None? <==> Walk(a, host, cfg.remoteSysnames).None?
    ensures r.Some? ==> KeysDistinct(r.value)
    ensures r.Some? ==> forall t :: Lookup(r.value, t) == LastNonEmpty(Walk(a, host, cfg.remoteSysnames).value, t)
    ensures r.Some? ==> forall j :: 0 <= j < |r.value| ==>
      r.value[j] in a.walk(host, cfg.remoteSysnames) && r.value[j].1 != ""
  {
    match Walk(a, host, cfg.remoteSysnames)
    case None => None
    case Some(walk) => Some(Collect(walk))
  }

  /** Every neighbour name `host` reports lies in the universe. */
  lemma NeighbourNamesBounded(env: Env, u: set<string>, host: string)
    requires Closed(env, u)
    ensures Neighbours(env.agent, host, env.cfg).Some? ==>
      forall i :: 0 <= i < |Neighbours(env.agent, host, env.cfg).value| ==>
        Neighbours(env.agent, host, env.cfg).value[i].1 in u
  {
    var walk := env.agent.walk(host, env.cfg.remoteSysnames);
    if Neighbours(env.agent, host, env.cfg).Some? {
      var n := Neighbours(env.agent, host, env.cfg).value;
      forall i | 0 <= i < |n| ensures n[i].1 in u {
        var k :| 0 <= k < |walk| && walk[k] == n[i];
        assert walk[k].1 in u;
      }
    }
  }

  /** `neighbours.values()`. */
  function Values(m: seq<(string, string)>): (vs: seq<string>)
    ensures |vs| == |m|
    ensures forall i :: 0 <= i < |m| ==> vs[i] == m[i].1
  {
    if |m| == 0 then [] else [m[0].1] + Values(m[1..])
  }

  /** The local port of an LLDP varbind: the second-to-last '.'-separated
      component of its tag; `IndexError` when the tag has no '.'. */
  function LocalPortIndex(tag: string): (r: Result<string>)
    ensures r.Failure? <==> '.' !in tag
    ensures r.Failure? ==> r.error == IndexError
    ensures r.Success? ==> '.' !in r.value && r.value in Split(tag, '.')
  {
    var parts := Split(tag, '.');
    if |parts| < 2 then
      assert Join(parts, '.') == parts[0];
      Failure(IndexError)
    else
      assert '.' in tag by {
        assert tag == parts[0] + ['.'] + Join(parts[1..], '.');
        assert tag[|parts[0]|] == '.';
      }
      Success(parts[|parts| - 2])
  }

  /** The port index really is the second-to-last component of the tag. */
  lemma LocalPortIndexOfJoin(components: seq<string>)
    requires |components| >= 2
    requires forall i :: 0 <= i < |components| ==> '.' !in components[i]
    ensures LocalPortIndex(Join(components, '.')) == Success(components[|components| - 2])
  {
    SplitJoin(components, '.');
  }

  /** One element of `get_neighbour_interface_info`'s list. */
  datatype Entry = Entry(name: string, speed: Option<nat>, neighbour: string)

  /** Where the speed of a neighbour's port is looked up: at the parent
      interface when the port's name has a '.', otherwise at the port itself. */
  function SpeedIndex(env: Env, host: string, index: string, name: string): Result<string>
  {
    if '.' in name then ParentInterface(env, host, index, name) else Success(index)
  }

  /** The entry for one neighbour: the port's name, the speed (in megabits)
      of the port or of its parent interface, and the neighbour's name. */
  function EntryFor(env: Env, host: string, tag: string, neighbour: string): (r: Result<Entry>)
    ensures r.Success? ==> LocalPortIndex(tag).Success?
    ensures r.Success? ==> r.value.neighbour == neighbour
    ensures r.Success? ==> r.value.name == InterfaceName(env.agent, host, env.cfg, LocalPortIndex(tag).value)
    ensures r.Success? ==>
      var index := LocalPortIndex(tag).value;
      var at := SpeedIndex(env, host, index, r.value.name);
      at.Success? && InterfaceSpeed(env.agent, host, env.cfg, at.value, "M") == Success(r.value.speed)
    ensures r.Failure? ==> r.error in {IndexError, ValueError, TypeError}
  {
    match LocalPortIndex(tag)
    case Failure(e) => Failure(e)
    case Success(index) =>
      var name := InterfaceName(env.agent, host, env.cfg, index);
      match SpeedIndex(env, host, index, name)
      case Failure(e) => Failure(e)
      case Success(at) =>
        match InterfaceSpeed(env.agent, host, env.cfg, at, "M")
        case Failure(e) => Failure(e)
        case Success(speed) => Success(Entry(name, speed, neighbour))
  }

  /** An entry is produced exactly when the tag has a port number, the parent
      search (if the port's name has a '.') succeeds, and the speed lookup
      does not raise. */
  lemma EntryForSucceeds(env: Env, host: string, tag: string, neighbour: string)
    ensures EntryFor(env, host, tag, neighbour).Success? <==>
      && LocalPortIndex(tag).Success?
      && var index := LocalPortIndex(tag).value;
         var at := SpeedIndex(env, host, index, InterfaceName(env.agent, host, env.cfg, index));
         at.Success? && InterfaceSpeed(env.agent, host, env.cfg, at.value, "M").Success?
  {
  }

  /** The entries of the neighbours before the `i`-th all succeed. */
  ghost predicate SucceedsBefore(env: Env, host: string, neighbours: seq<(string, string)>, i: int)
    requires 0 <= i <= |neighbours|
  {
    forall j :: 0 <= j < i ==> EntryFor(env, host, neighbours[j].0, neighbours[j].1).Success?
  }

  /** After a first entry that succeeds, the later neighbours succeeding
      before their `i`-th means all neighbours succeed before the
      `i + 1`-th. */
  lemma SucceedsBeforeShift(env: Env, host: string, neighbours: seq<(string, string)>, i: nat)
    requires i + 1 < |neighbours| && EntryFor(env, host, neighbours[0].0, neighbours[0].1).Success?
    requires SucceedsBefore(env, host, neighbours[1..], i)
    ensures SucceedsBefore(env, host, neighbours, i + 1)
  {
    forall j | 0 <= j < i + 1 ensures EntryFor(env, host, neighbours[j].0, neighbours[j].1).Success? {
      if j > 0 {
        assert neighbours[j] == neighbours[1..][j - 1];
      }
    }
  }

  /** `get_neighbour_interface_info(host, neighbours)`: one entry per neighbour,
      in the dict's order, or the first exception one of them raises. */
  function NeighbourInterfaceInfo(env: Env, host: string, neighbours: seq<(string, string)>): (r: Result<seq<Entry>>)
    ensures r.Success? <==> forall i :: 0 <= i < |neighbours| ==> EntryFor(env, host, neighbours[i].0, neighbours[i].1).Success?
    ensures r.Success? ==> |r.value| == |neighbours|
    ensures r.Success? ==> forall i :: 0 <= i < |neighbours| ==>
      EntryFor(env, host, neighbours[i].0, neighbours[i].1) == Success(r.value[i])
  {
    if |neighbours| == 0 then Success([])
    else
      match EntryFor(env, host, neighbours[0].0, neighbours[0].1)
      case Failure(e) => Failure(e)
      case Success(entry) =>
        assert forall i :: 0 < i < |neighbours| ==> neighbours[1..][i - 1] == neighbours[i];
        match NeighbourInterfaceInfo(env, host, neighbours[1..])
        case Failure(e) => Failure(e)
        case Success(rest) => Success([entry] + rest)
  }

  /** A failure is the exception of the first neighbour whose entry raises:
      every neighbour before it succeeds. */
  lemma {:induction false} NeighbourInterfaceInfoFails(env: Env, host: string, neighbours: seq<(string, string)>)
    ensures var r := NeighbourInterfaceInfo(env, host, neighbours);
      r.Failure? ==> exists i :: (0 <= i < |neighbours| && SucceedsBefore(env, host, neighbours, i) &&
        EntryFor(env, host, neighbours[i].0, neighbours[i].1) == Failure(r.error))
    decreases |neighbours|
  {
    if |neighbours| > 0 {
      var first := EntryFor(env, host, neighbours[0].0, neighbours[0].1);
      if first.Failure? {
        assert SucceedsBefore(env, host, neighbours, 0);
      } else {
        NeighbourInterfaceInfoFails(env, host, neighbours[1..]);
        var rest := NeighbourInterfaceInfo(env, host, neighbours[1..]);
        if rest.Failure? {
          var i :| (0 <= i < |neighbours[1..]| && SucceedsBefore(env, host, neighbours[1..], i) &&
            EntryFor(env, host, neighbours[1..][i].0, neighbours[1..][i].1) == Failure(rest.error));
          assert neighbours[1..][i] == neighbours[i + 1];
          SucceedsBeforeShift(env, host, neighbours, i);
        }
      }
    }
  }

  /** The `neighbours=None` default: fetch the neighbours first; when there are
      none, `None.keys()` raises `AttributeError`. */
  function InterfaceInfoOrFetch(env: Env, host: string, given: Option<seq<(string, string)>>): (r: Result<seq<Entry>>)
    ensures given.Some? ==> r == NeighbourInterfaceInfo(env, host, given.value)
    ensures given.None? && Neighbours(env.agent, host, env.cfg).None? ==> r == Failure(AttributeError)
    ensures given.None? && Neighbours(env.agent, host, env.cfg).Some? ==>
      r == NeighbourInterfaceInfo(env, host, Neighbours(env.agent, host, env.cfg).value)
  {
    match given
    case Some(n) => NeighbourInterfaceInfo(env, host, n)
    case None =>
      match Neighbours(env.agent, host, env.cfg)
      case None => Failure(AttributeError)
      case Some(n) => NeighbourInterfaceInfo(env, host, n)
  }
}

=== FILE: lldp.dfy ===
/** lldp.py: the recursive LLDP crawl `gettree` and the list/tree choice of the
    command line. The module-level `checked` list is threaded through the
    recursion as an explicit value. */
module Lldp {
  import opened Wrappers
  import opened Text
  import opened Snmp
  import opened Seqs
  import Interfaces

  /** `{"id": host, "children": [...]}`; no branches stands for the missing
      "children" key. */
  datatype Tree = Tree(id: string, branches: seq<Tree>)

  /** The node ids of a tree, parent before children, children left to right. */
  function Preorder(t: Tree): seq<string>
    decreases t
  {
    [t.id] + Forest(t.branches)
  }

  function Forest(ts: seq<Tree>): seq<string>
    decreases ts
  {
    if |ts| == 0 then [] else Preorder(ts[0]) + Forest(ts[1..])
  }

  /** A crawl's result paired with the visited list after it. */
  datatype Visit = Visit(tree: Tree, checked: seq<string>)
  datatype Visits = Visits(trees: seq<Tree>, checked: seq<string>)

  /** `gettree(host)`: a node for `host` whose branches are the crawls of the
      neighbours not yet visited, each visited name appended to `checked`
      before its own crawl. The visited list grows by exactly the tree's
      descendants in pre-order, and never gains a duplicate. */
  function GetTree(env: Env, ghost u: set<string>, host: string, checked: seq<string>): (r: Visit)
    requires Closed(env, u)
    ensures r.tree.id == host
    ensures r.checked == checked + Forest(r.tree.branches)
    ensures NoDup(checked) ==> NoDup(r.checked)
    ensures !Configures(env.agent, host) ==> r == Visit(Tree(host, []), checked)
    ensures Interfaces.Neighbours(env.agent, host, env.cfg).None? ==> r == Visit(Tree(host, []), checked)
    ensures forall i :: 0 <= i < |r.tree.branches| ==> r.tree.branches[i].id !in checked
    ensures AllCovered(env, Preorder(r.tree), r.checked)
    decreases |u - Elems(checked)|, 1
  {
    if !Configures(env.agent, host) then Visit(Tree(host, []), checked)
    else
      match Interfaces.Neighbours(env.agent, host, env.cfg)
      case None => Visit(Tree(host, []), checked)
      case Some(neighbours) =>
        if |neighbours| == 0 then Visit(Tree(host, []), checked)
        else
          Interfaces.NeighbourNamesBounded(env, u, host);
          var names := Interfaces.Values(neighbours);
          var grown := Branches(env, u, names, checked);
          NodeCovered(env, host, grown.trees, grown.checked);
          Visit(Tree(host, grown.trees), grown.checked)
  }

  /** Every non-empty neighbour name of `host`, if it is polled and answers
      the walk, is in `c`: the crawl has looked at all of them. */
  ghost predicate Covered(env: Env, host: string, c: seq<string>)
  {
    Configures(env.agent, host) && Interfaces.Neighbours(env.agent, host, env.cfg).Some? ==>
      forall x :: x in Interfaces.Values(Interfaces.Neighbours(env.agent, host, env.cfg).value) && x != "" ==> x in c
  }

  /** Every host of `hosts` is covered by `c`. */
  ghost predicate AllCovered(env: Env, hosts: seq<string>, c: seq<string>)
  {
    forall i :: 0 <= i < |hosts| ==> Covered(env, hosts[i], c)
  }

  lemma CoveredGrows(env: Env, hosts: seq<string>, c: seq<string>, d: seq<string>)
    requires AllCovered(env, hosts, c) && c <= d
    ensures AllCovered(env, hosts, d)
  {
    assert forall x :: x in c ==> x in d;
  }

  /** A node whose own neighbours and whose branches' nodes are covered. */
  lemma NodeCovered(env: Env, host: string, ts: seq<Tree>, c: seq<string>)
    requires Covered(env, host, c) && AllCovered(env, Forest(ts), c)
    ensures AllCovered(env, Preorder(Tree(host, ts)), c)
  {
  }

  /** A crawled subtree, covered when its crawl ended, stays covered while
      its siblings are crawled. */
  lemma ForestCovered(env: Env, t: Tree, mid: seq<string>, ts: seq<Tree>, last: seq<string>)
    requires AllCovered(env, Preorder(t), mid) && mid <= last
    requires AllCovered(env, Forest(ts), last)
    ensures AllCovered(env, Forest([t] + ts), last)
  {
    CoveredGrows(env, Preorder(t), mid, last);
    assert ([t] + ts)[1..] == ts;
  }

  /** Every non-empty neighbour name of a polled host ends up in `checked`,
      and the node has branches exactly when one of them was not there
      before. */
  lemma GetTreeCrawlsNeighbours(env: Env, u: set<string>, host: string, checked: seq<string>)
    requires Closed(env, u)
    ensures var r := GetTree(env, u, host, checked);
      Configures(env.agent, host) && Interfaces.Neighbours(env.agent, host, env.cfg).Some? ==>
        var names := Interfaces.Values(Interfaces.Neighbours(env.agent, host, env.cfg).value);
        && (forall x :: x in names && x != "" ==> x in r.checked)
        && (|r.tree.branches| > 0 <==> exists x :: x in names && x != "" && x !in checked)
  {
  }

  /** The loop of `gettree` over the neighbour names: an empty name, or one
      already in `checked`, is skipped; any other is appended and crawled. */
  function Branches(env: Env, ghost u: set<string>, names: seq<string>, checked: seq<string>): (r: Visits)
    requires Closed(env, u)
    requires forall i :: 0 <= i < |names| ==> names[i] in u
    ensures r.checked == checked + Forest(r.trees)
    ensures NoDup(checked) ==> NoDup(r.checked)
    ensures forall i :: 0 <= i < |r.trees| ==> r.trees[i].id in names && r.trees[i].id != ""
    ensures forall i :: 0 <= i < |r.trees| ==> r.trees[i].id !in checked
    ensures forall x :: x in names && x != "" ==> x in r.checked
    ensures |r.trees| > 0 <==> exists x :: x in names && x != "" && x !in checked
    ensures AllCovered(env, Forest(r.trees), r.checked)
    decreases |u - Elems(checked)|, 0, |names|
  {
    if |names| == 0 then Visits([], checked)
    else if names[0] != "" && names[0] !in checked then Fresh(env, u, names[0], names[1..], checked)
    else Branches(env, u, names[1..], checked)
  }

  /** One new neighbour `x`: append it to `checked`, crawl it, then go on with
      the remaining names. */
  function Fresh(env: Env, ghost u: set<string>, x: string, names: seq<string>, checked: seq<string>): (r: Visits)
    requires Closed(env, u)
    requires x in u && x != "" && x !in checked
    requires forall i :: 0 <= i < |names| ==> names[i] in u
    ensures r.checked == checked + Forest(r.trees)
    ensures NoDup(checked) ==> NoDup(r.checked)
    ensures |r.trees| > 0 && r.trees[0].id == x
    ensures forall i :: 0 < i < |r.trees| ==> r.trees[i].id in names && r.trees[i].id != ""
    ensures forall i :: 0 <= i < |r.trees| ==> r.trees[i].id !in checked
    ensures forall y :: y in names && y != "" ==> y in r.checked
    ensures AllCovered(env, Forest(r.trees), r.checked)
    decreases |u - Elems(checked)|, 0, |names|, 1
  {
    AppendShrinks(u, checked, x);
    AppendFresh(checked, x);
    var sub := GetTree(env, u, x, checked + [x]);
    ExtendShrinks(u, checked + [x], sub.checked);
    var rest := Branches(env, u, names, sub.checked);
    ForestCons(checked, sub.tree, sub.checked, rest.trees, rest.checked);
    FreshIds(checked, x, sub, rest.trees);
    ForestCovered(env, sub.tree, sub.checked, rest.trees, rest.checked);
    assert forall i :: 0 < i < |rest.trees| + 1 ==> ([sub.tree] + rest.trees)[i] == rest.trees[i - 1];
    Visits([sub.tree] + rest.trees, rest.checked)
  }

  /** The first branch of a new neighbour `x` is the crawl of `x` from
      `checked + [x]`, and the siblings after it are the crawl of the
      remaining names from where that crawl left `checked`. */
  lemma FreshCrawlsFirst(env: Env, u: set<string>, x: string, names: seq<string>, checked: seq<string>)
    requires Closed(env, u)
    requires x in u && x != "" && x !in checked
    requires forall i :: 0 <= i < |names| ==> names[i] in u
    ensures var sub := GetTree(env, u, x, checked + [x]);
      var r := Fresh(env, u, x, names, checked);
      && r.trees[0] == sub.tree
      && r.trees[1..] == Branches(env, u, names, sub.checked).trees
  {
    var sub := GetTree(env, u, x, checked + [x]);
    var rest := Branches(env, u, names, sub.checked);
    assert ([sub.tree] + rest.trees)[1..] == rest.trees;
  }

  /** Neither the new neighbour nor a sibling crawled after it was visited
      before. */
  lemma FreshIds(checked: seq<string>, x: string, sub: Visit, ts: seq<Tree>)
    requires x !in checked && sub.tree.id == x
    requires sub.checked == checked + [x] + Forest(sub.tree.branches)
    requires forall i :: 0 <= i < |ts| ==> ts[i].id !in sub.checked
    ensures forall i :: 0 <= i < |[sub.tree] + ts| ==> ([sub.tree] + ts)[i].id !in checked
  {
    assert forall y :: y in checked ==> y in sub.checked;
  }

  /** A crawled subtree followed by its siblings extends the visited list by
      the subtree's pre-order, then the siblings'. */
  lemma ForestCons(checked: seq<string>, t: Tree, mid: seq<string>, ts: seq<Tree>, last: seq<string>)
    requires mid == checked + [t.id] + Forest(t.branches)
    requires last == mid + Forest(ts)
    ensures last == checked + Forest([t] + ts)
  {
    assert ([t] + ts)[1..] == ts;
  }

  /** What the program prints: the tree, or the visited list. */
  datatype Output = TreeOutput(tree: Tree) | ListOutput(hosts: seq<string>)

  /** The `__main__` block: the root goes into `checked` before the crawl, so
      it is never crawled again; unless the command mentions "tree", the
      output is the visited list. */
  function Run(env: Env, ghost u: set<string>, command: string, host: string): (r: Output)
    requires Closed(env, u)
    ensures r.TreeOutput? <==> Contains(command, "tree")
    ensures r.TreeOutput? ==> r.tree.id == host && NoDup(Preorder(r.tree))
    ensures r.ListOutput? ==> |r.hosts| >= 1 && r.hosts[0] == host && NoDup(r.hosts)
  {
    var visit := GetTree(env, u, host, [host]);
    assert visit.checked == Preorder(visit.tree);
    if Contains(command, "tree") then TreeOutput(visit.tree) else ListOutput(visit.checked)
  }

  /** The list mode prints exactly the tree mode's node ids, in pre-order. */
  lemma ListIsPreorder(env: Env, u: set<string>, listCommand: string, treeCommand: string, host: string)
    requires Closed(env, u)
    requires !Contains(listCommand, "tree") && Contains(treeCommand, "tree")
    ensures Run(env, u, listCommand, host).hosts == Preorder(Run(env, u, treeCommand, host).tree)
  {
  }
}

=== FILE: lldptree.dfy ===
/** lldptree.py: `branch`, the first version of the LLDP crawler. Unlike lldp.py
    it strips the domain from every name before polling, can attach device
    info and interface tables, and never puts the root into `checked`. The
    command-line switches become `Options`; the module-level `checked` list is
    threaded through the recursion. */
module LldpTree {
  import opened Wrappers
  import opened Text
  import opened Snmp
  import opened Seqs
  import Interfaces
  import DeviceInfo

  /** The `--info`, `--recurse` and `--interfaces` switches. */
  datatype Options = Options(info: bool, recurse: bool, interfaces: bool)

  /** The "children" entry: missing, the recursive results (`None` for a
      neighbour whose name strips to nothing), or, without `--recurse`, the
      neighbour names themselves. */
  datatype Children = NoChildren | Subtrees(nodes: seq<Option<Node>>) | Names(names: seq<string>)

  /** The dict `branch` returns: the "id" key, the device-info keys (other
      than "id"), "children" and the optional "interfaces" list. */
  datatype Node = Node(id: string, info: map<string, string>, children: Children, interfaces: Option<seq<Interfaces.Entry>>)

  function StripAll(hosts: seq<string>): (r: seq<string>)
    ensures |r| == |hosts|
  {
    if |hosts| == 0 then [] else [StripDomain(hosts[0])] + StripAll(hosts[1..])
  }

  lemma {:induction false} StripAllAppend(a: seq<string>, b: seq<string>)
    ensures StripAll(a + b) == StripAll(a) + StripAll(b)
    decreases |a|
  {
    if |a| == 0 {
      assert a + b == b;
    } else {
      assert (a + b)[0] == a[0];
      assert (a + b)[1..] == a[1..] + b;
      StripAllAppend(a[1..], b);
    }
  }

  /** The ids of a node and of everything below it, in pre-order; a `None`
      child stands for the empty name that produced it. */
  function NodeIds(n: Node): seq<string>
    decreases n
  {
    [n.id] + ChildIds(n.children)
  }

  function ChildIds(c: Children): seq<string>
    decreases c
  {
    match c
    case NoChildren => []
    case Names(_) => []
    case Subtrees(ns) => SubtreeIds(ns)
  }

  function SubtreeIds(ns: seq<Option<Node>>): seq<string>
    decreases ns
  {
    if |ns| == 0 then [] else OptionIds(ns[0]) + SubtreeIds(ns[1..])
  }

  function OptionIds(o: Option<Node>): seq<string>
    decreases o
  {
    match o
    case None => [""]
    case Some(n) => NodeIds(n)
  }

  /** The ids below the result of a `branch` call. */
  function DescendantIds(o: Option<Node>): seq<string>
  {
    match o
    case None => []
    case Some(n) => ChildIds(n.children)
  }

  /** A call's outcome paired with the visited list after it. */
  datatype Crawl = Crawl(outcome: Result<Option<Node>>, checked: seq<string>)
  datatype Crawls = Crawls(outcome: Result<seq<Option<Node>>>, checked: seq<string>)

  /** `branch(host)`. An empty stripped name gives `None`. Every neighbour
      not yet in `checked` is appended to it before being crawled, so the list
      never gains a duplicate, and after a successful crawl the names it
      gained, stripped, are exactly the ids below the returned node, in
      pre-order. Without `--recurse` nothing is appended. Only an interface
      table can raise, so a crawl without `--interfaces` always succeeds. */
  function Branch(env: Env, opts: Options, ghost u: set<string>, host: string, checked: seq<string>): (r: Crawl)
    requires Closed(env, u)
    ensures checked <= r.checked
    ensures NoDup(checked) ==> NoDup(r.checked)
    ensures !opts.recurse ==> r.checked == checked
    ensures StripDomain(host) == "" ==> r == Crawl(Success(None), checked)
    ensures r.outcome.Success? && r.outcome.value.None? ==> StripDomain(host) == ""
    ensures r.outcome.Success? && r.outcome.value.Some? ==>
      var node := r.outcome.value.value;
      && node.id == StripDomain(host)
      && (node.children.Subtrees? ==> opts.recurse && |node.children.nodes| > 0)
      && (node.children.Names? ==> !opts.recurse)
    ensures r.outcome.Success? ==> StripAll(r.checked[|checked|..]) == DescendantIds(r.outcome.value)
    ensures r.outcome.Failure? ==> opts.interfaces
    ensures r.outcome.Failure? <==> opts.interfaces && !(TableBuilds(env, StripDomain(host)) && AllBuild(env, r.checked[|checked|..]))
    ensures opts.recurse && r.outcome.Success? ==> AllCovered(env, OptionIds(r.outcome.value), r.checked)
    decreases |u - Elems(checked)|, 1, 1
  {
    var h := StripDomain(host);
    if h == "" then Crawl(Success(None), checked)
    else
      var info := if opts.info then DeviceInfo.Info(env.agent, h, env.cfg) - {"id"} else map[];
      match Interfaces.Neighbours(env.agent, h, env.cfg)
      case None => Crawl(Success(Some(Node(h, info, NoChildren, None))), checked)
      case Some(neighbours) =>
        if |neighbours| == 0 then Crawl(Success(Some(Node(h, info, NoChildren, None))), checked)
        else if !opts.recurse then
          Finish(env, opts, h, info, neighbours, Names(Interfaces.Values(neighbours)), checked)
        else Descend(env, opts, u, h, info, neighbours, checked)
  }

  /** The interface table of the stripped name `id` can be built: the name is
      empty (and never polled), its walk does not answer, or every neighbour's
      entry succeeds. */
  ghost predicate TableBuilds(env: Env, id: string)
  {
    id != "" && Interfaces.Neighbours(env.agent, id, env.cfg).Some? ==>
      Interfaces.NeighbourInterfaceInfo(env, id, Interfaces.Neighbours(env.agent, id, env.cfg).value).Success?
  }

  /** The interface table of every name of `hosts`, stripped, can be built. */
  ghost predicate AllBuild(env: Env, hosts: seq<string>)
  {
    |hosts| == 0 || (TableBuilds(env, StripDomain(hosts[0])) && AllBuild(env, hosts[1..]))
  }

  /** The crawl `sub` of a new neighbour `x` fails exactly when a table
      among `x` and the names it appended fails. */
  lemma FreshBuilds(env: Env, opts: Options, checked: seq<string>, x: string, sub: Crawl)
    requires checked + [x] <= sub.checked
    requires sub.outcome.Failure? <==>
      opts.interfaces && !(TableBuilds(env, StripDomain(x)) && AllBuild(env, sub.checked[|checked + [x]|..]))
    ensures sub.outcome.Failure? <==> opts.interfaces && !AllBuild(env, sub.checked[|checked|..])
  {
    assert |checked + [x]| == |checked| + 1;
    assert sub.checked[|checked|] == x;
    assert sub.checked[|checked|..][1..] == sub.checked[|checked| + 1..];
  }

  /** The siblings' crawl `rest`, from `mid` on, fails exactly when a table
      among the names appended since `checked` fails, given that those up to
      `mid` build. */
  lemma RestBuilds(env: Env, opts: Options, checked: seq<string>, mid: seq<string>, rest: Crawls)
    requires checked <= mid <= rest.checked
    requires opts.interfaces ==> AllBuild(env, mid[|checked|..])
    requires rest.outcome.Failure? <==> opts.interfaces && !AllBuild(env, rest.checked[|mid|..])
    ensures rest.outcome.Failure? <==> opts.interfaces && !AllBuild(env, rest.checked[|checked|..])
  {
    assert rest.checked[|checked|..] == mid[|checked|..] + rest.checked[|mid|..];
    AllBuildJoin(env, mid[|checked|..], rest.checked[|mid|..]);
  }

  lemma {:induction false} AllBuildJoin(env: Env, a: seq<string>, b: seq<string>)
    ensures AllBuild(env, a + b) <==> AllBuild(env, a) && AllBuild(env, b)
    decreases |a|
  {
    if |a| == 0 {
      assert a + b == b;
    } else {
      assert (a + b)[0] == a[0];
      assert (a + b)[1..] == a[1..] + b;
      AllBuildJoin(env, a[1..], b);
    }
  }

  /** The device-info keys of a crawled node: with `--info`, everything
      `get_device_info` found for the stripped name except "id", which the
      node's own id overrides; without it, nothing. */
  lemma BranchInfo(env: Env, opts: Options, u: set<string>, host: string, checked: seq<string>)
    requires Closed(env, u)
    ensures var r := Branch(env, opts, u, host, checked);
      r.outcome.Success? && r.outcome.value.Some? ==>
        r.outcome.value.value.info == (if opts.info then DeviceInfo.Info(env.agent, StripDomain(host), env.cfg) - {"id"} else map[])
  {
  }

  /** The children and interfaces of a crawled node. The interface table is
      attached exactly when `--interfaces` is given and the host has
      neighbours; so is the plain list of neighbour names, but without
      `--recurse`. With `--recurse`, every non-empty neighbour name ends up in
      `checked`, and there are subtrees exactly when one of them was not there
      before. */
  lemma BranchChildren(env: Env, opts: Options, u: set<string>, host: string, checked: seq<string>)
    requires Closed(env, u)
    ensures var r := Branch(env, opts, u, host, checked);
      r.outcome.Success? && r.outcome.value.Some? ==>
        var node := r.outcome.value.value;
        var found := Interfaces.Neighbours(env.agent, StripDomain(host), env.cfg);
        && (node.interfaces.Some? <==> opts.interfaces && found.Some? && |found.value| > 0)
        && (node.children.Names? <==> !opts.recurse && found.Some? && |found.value| > 0)
        && (node.children.Names? ==> node.children.names == Interfaces.Values(found.value))
    ensures var r := Branch(env, opts, u, host, checked);
      r.outcome.Success? && r.outcome.value.Some? && opts.recurse ==>
        var found := Interfaces.Neighbours(env.agent, StripDomain(host), env.cfg);
        found.Some? ==>
          var names := Interfaces.Values(found.value);
          && (forall x :: x in names && x != "" ==> x in r.checked)
          && (r.outcome.value.value.children.Subtrees? <==> exists x :: x in names && x != "" && x !in checked)
    ensures var r := Branch(env, opts, u, host, checked);
      var found := Interfaces.Neighbours(env.agent, StripDomain(host), env.cfg);
      r.outcome.Success? && r.outcome.value.Some? && opts.interfaces && found.Some? && |found.value| > 0 ==>
        && r.outcome.value.value.interfaces.Some?
        && Interfaces.NeighbourInterfaceInfo(env, StripDomain(host), found.value) == Success(r.outcome.value.value.interfaces.value)
    ensures var r := Branch(env, opts, u, host, checked);
      var found := Interfaces.Neighbours(env.agent, StripDomain(host), env.cfg);
      !opts.recurse && StripDomain(host) != "" ==>
        (r.outcome.Failure? <==> opts.interfaces && found.Some? && Interfaces.NeighbourInterfaceInfo(env, StripDomain(host), found.value).Failure?)
  {
  }

  /** The `--recurse` part of `branch`: crawl the neighbours, then finish the
      node with their results as its children. */
  function Descend(env: Env, opts: Options, ghost u: set<string>, h: string, info: map<string, string>,
                   neighbours: seq<(string, string)>, checked: seq<string>): (r: Crawl)
    requires Closed(env, u)
    requires opts.recurse
    requires h != ""
    requires Interfaces.Neighbours(env.agent, h, env.cfg) == Some(neighbours)
    ensures checked <= r.checked
    ensures NoDup(checked) ==> NoDup(r.checked)
    ensures r.outcome.Success? ==>
      && r.outcome.value.Some?
      && r.outcome.value.value.id == h
      && r.outcome.value.value.info == info
      && (r.outcome.value.value.children.Subtrees? ==> |r.outcome.value.value.children.nodes| > 0)
      && !r.outcome.value.value.children.Names?
      && (r.outcome.value.value.interfaces.Some? <==> opts.interfaces)
    ensures r.outcome.Success? ==> StripAll(r.checked[|checked|..]) == DescendantIds(r.outcome.value)
    ensures r.outcome.Success? ==>
      var names := Interfaces.Values(neighbours);
      && (forall x :: x in names && x != "" ==> x in r.checked)
      && (r.outcome.value.value.children.Subtrees? <==> exists x :: x in names && x != "" && x !in checked)
    ensures r.outcome.Success? && opts.interfaces ==>
      Interfaces.NeighbourInterfaceInfo(env, h, neighbours) == Success(r.outcome.value.value.interfaces.value)
    ensures r.outcome.Failure? <==> opts.interfaces && !(TableBuilds(env, h) && AllBuild(env, r.checked[|checked|..]))
    ensures r.outcome.Success? ==> AllCovered(env, OptionIds(r.outcome.value), r.checked)
    decreases |u - Elems(checked)|, 1, 0
  {
    Interfaces.NeighbourNamesBounded(env, u, h);
    var kids := CrawlChildren(env, opts, u, Interfaces.Values(neighbours), checked);
    match kids.outcome
    case Failure(e) => Crawl(Failure(e), kids.checked)
    case Success(ns) =>
      var children := if |ns| == 0 then NoChildren else Subtrees(ns);
      var fin := Finish(env, opts, h, info, neighbours, children, kids.checked);
      NodeCovered(env, h, neighbours, children, fin);
      fin
  }

  /** Every non-empty neighbour name of the stripped name `id`, if its walk
      answers, is in `c`: the crawl has looked at all of them. The empty name
      is never polled. */
  ghost predicate Covered(env: Env, id: string, c: seq<string>)
  {
    id != "" && Interfaces.Neighbours(env.agent, id, env.cfg).Some? ==>
      var found := Interfaces.Neighbours(env.agent, id, env.cfg).value;
      forall j :: 0 <= j < |found| && found[j].1 != "" ==> found[j].1 in c
  }

  /** Every id of `ids` is covered by `c`. */
  ghost predicate AllCovered(env: Env, ids: seq<string>, c: seq<string>)
  {
    forall i :: 0 <= i < |ids| ==> Covered(env, ids[i], c)
  }

  lemma CoveredGrows(env: Env, ids: seq<string>, c: seq<string>, d: seq<string>)
    requires AllCovered(env, ids, c) && c <= d
    ensures AllCovered(env, ids, d)
  {
    assert forall x :: x in c ==> x in d;
  }

  /** A finished node is covered once its own neighbours and its children's
      ids are. */
  lemma NodeCovered(env: Env, h: string, neighbours: seq<(string, string)>, children: Children, fin: Crawl)
    requires Interfaces.Neighbours(env.agent, h, env.cfg) == Some(neighbours)
    requires forall x :: x in Interfaces.Values(neighbours) && x != "" ==> x in fin.checked
    requires AllCovered(env, ChildIds(children), fin.checked)
    requires fin.outcome.Success? ==> fin.outcome.value.Some? && fin.outcome.value.value.id == h && fin.outcome.value.value.children == children
    ensures fin.outcome.Success? ==> AllCovered(env, OptionIds(fin.outcome.value), fin.checked)
  {
  }

  /** The tail of `branch`: attach the interface table when `--interfaces`
      asks for it, which raises when one of the neighbours' entries does. */
  function Finish(env: Env, opts: Options, h: string, info: map<string, string>, neighbours: seq<(string, string)>,
                  children: Children, checked: seq<string>): (r: Crawl)
    ensures r.checked == checked
    ensures r.outcome.Success? ==>
      && r.outcome.value.Some?
      && r.outcome.value.value.id == h
      && r.outcome.value.value.info == info
      && r.outcome.value.value.children == children
    ensures r.outcome.Success? ==>
      (r.outcome.value.value.interfaces.Some? <==> opts.interfaces)
    ensures r.outcome.Success? && opts.interfaces ==>
      Interfaces.NeighbourInterfaceInfo(env, h, neighbours) == Success(r.outcome.value.value.interfaces.value)
    ensures r.outcome.Failure? <==> opts.interfaces && Interfaces.NeighbourInterfaceInfo(env, h, neighbours).Failure?
  {
    if opts.interfaces then
      match Interfaces.NeighbourInterfaceInfo(env, h, neighbours)
      case Failure(e) => Crawl(Failure(e), checked)
      case Success(entries) => Crawl(Success(Some(Node(h, info, children, Some(entries)))), checked)
    else Crawl(Success(Some(Node(h, info, children, None))), checked)
  }

  /** The `--recurse` loop of `branch` over the neighbour names: an empty name,
      or one already in `checked`, is skipped. */
  function CrawlChildren(env: Env, opts: Options, ghost u: set<string>, names: seq<string>, checked: seq<string>): (r: Crawls)
    requires Closed(env, u)
    requires opts.recurse
    requires forall i :: 0 <= i < |names| ==> names[i] in u
    ensures checked <= r.checked
    ensures NoDup(checked) ==> NoDup(r.checked)
    ensures r.outcome.Success? ==> StripAll(r.checked[|checked|..]) == SubtreeIds(r.outcome.value)
    ensures r.outcome.Success? ==> forall x :: x in names && x != "" ==> x in r.checked
    ensures r.outcome == Success([]) <==> forall x :: x in names ==> x == "" || x in checked
    ensures r.outcome == Success([]) ==> r.checked == checked
    ensures r.outcome.Failure? <==> opts.interfaces && !AllBuild(env, r.checked[|checked|..])
    ensures r.outcome.Success? ==> AllCovered(env, SubtreeIds(r.outcome.value), r.checked)
    decreases |u - Elems(checked)|, 0, |names|
  {
    if |names| == 0 then Crawls(Success([]), checked)
    else if names[0] != "" && names[0] !in checked then CrawlFresh(env, opts, u, names[0], names[1..], checked)
    else CrawlChildren(env, opts, u, names[1..], checked)
  }

  /** One new neighbour `x`: append it to `checked`, crawl it, then go on with
      the remaining names. */
  function CrawlFresh(env: Env, opts: Options, ghost u: set<string>, x: string, names: seq<string>, checked: seq<string>): (r: Crawls)
    requires Closed(env, u)
    requires opts.recurse
    requires x in u && x != "" && x !in checked
    requires forall i :: 0 <= i < |names| ==> names[i] in u
    ensures checked <= r.checked
    ensures NoDup(checked) ==> NoDup(r.checked)
    ensures r.outcome.Success? ==> StripAll(r.checked[|checked|..]) == SubtreeIds(r.outcome.value)
    ensures |r.checked| > |checked| && r.checked[|checked|] == x
    ensures r.outcome.Success? ==>
      && |r.outcome.value| > 0
      && (r.outcome.value[0].None? <==> StripDomain(x) == "")
      && (r.outcome.value[0].Some? ==> r.outcome.value[0].value.id == StripDomain(x))
    ensures r.outcome.Success? ==> forall y :: y in names && y != "" ==> y in r.checked
    ensures r.outcome.Failure? <==> opts.interfaces && !AllBuild(env, r.checked[|checked|..])
    ensures r.outcome.Success? ==> AllCovered(env, SubtreeIds(r.outcome.value), r.checked)
    decreases |u - Elems(checked)|, 0, |names|, 2
  {
    AppendShrinks(u, checked, x);
    AppendFresh(checked, x);
    var sub := Branch(env, opts, u, x, checked + [x]);
    FreshBuilds(env, opts, checked, x, sub);
    CrawlAfter(env, opts, u, x, names, checked, sub)
  }

  /** What follows the crawl `sub` of a new neighbour `x`: its failure is the
      result; otherwise its node is the first child, ahead of the siblings. */
  function CrawlAfter(env: Env, opts: Options, ghost u: set<string>, x: string, names: seq<string>,
                      checked: seq<string>, sub: Crawl): (r: Crawls)
    requires Closed(env, u)
    requires opts.recurse
    requires x in u && x !in checked
    requires forall i :: 0 <= i < |names| ==> names[i] in u
    requires checked + [x] <= sub.checked
    requires NoDup(checked) ==> NoDup(sub.checked)
    requires sub.outcome.Success? ==>
      && StripAll(sub.checked[|checked| + 1..]) == DescendantIds(sub.outcome.value)
      && (sub.outcome.value.None? ==> StripDomain(x) == "")
      && (sub.outcome.value.Some? ==> sub.outcome.value.value.id == StripDomain(x))
      && AllCovered(env, OptionIds(sub.outcome.value), sub.checked)
    requires sub.outcome.Failure? <==> opts.interfaces && !AllBuild(env, sub.checked[|checked|..])
    ensures checked <= r.checked && sub.checked <= r.checked
    ensures NoDup(checked) ==> NoDup(r.checked)
    ensures r.outcome.Success? ==> StripAll(r.checked[|checked|..]) == SubtreeIds(r.outcome.value)
    ensures |r.checked| > |checked| && r.checked[|checked|] == x
    ensures sub.outcome.Failure? ==> r == Crawls(Failure(sub.outcome.error), sub.checked)
    ensures r.outcome.Success? ==> sub.outcome.Success? && |r.outcome.value| > 0 && r.outcome.value[0] == sub.outcome.value
    ensures r.outcome.Success? ==> forall y :: y in names && y != "" ==> y in r.checked
    ensures r.outcome.Failure? <==> opts.interfaces && !AllBuild(env, r.checked[|checked|..])
    ensures r.outcome.Success? ==> AllCovered(env, SubtreeIds(r.outcome.value), r.checked)
    decreases |u - Elems(checked)|, 0, |names|, 1
  {
    assert |checked + [x]| == |checked| + 1;
    PrefixTrans(checked, checked + [x], sub.checked);
    match sub.outcome
    case Failure(e) => Crawls(Failure(e), sub.checked)
    case Success(node) =>
      var r := CrawlRest(env, opts, u, x, node, names, checked, sub.checked);
      PrefixTrans(checked + [x], sub.checked, r.checked);
      r
  }

  /** The first child of a new neighbour `x` is the crawl of `x` from
      `checked + [x]`, and a failure of that crawl is the result; the siblings
      are crawled from where it left `checked`. */
  lemma CrawlFreshCrawlsFirst(env: Env, opts: Options, u: set<string>, x: string, names: seq<string>, checked: seq<string>)
    requires Closed(env, u)
    requires opts.recurse
    requires x in u && x != "" && x !in checked
    requires forall i :: 0 <= i < |names| ==> names[i] in u
    ensures var sub := Branch(env, opts, u, x, checked + [x]);
      var r := CrawlFresh(env, opts, u, x, names, checked);
      && sub.checked <= r.checked
      && (sub.outcome.Failure? ==> r == Crawls(Failure(sub.outcome.error), sub.checked))
      && (r.outcome.Success? ==> sub.outcome.Success? && r.outcome.value[0] == sub.outcome.value)
  {
  }

  /** The siblings after the crawled child `node`, whose crawl took the
      visited list from `checked + [x]` to `mid`. */
  function CrawlRest(env: Env, opts: Options, ghost u: set<string>, x: string, node: Option<Node>, names: seq<string>,
                     checked: seq<string>, mid: seq<string>): (r: Crawls)
    requires Closed(env, u)
    requires opts.recurse
    requires x in u && x !in checked
    requires forall i :: 0 <= i < |names| ==> names[i] in u
    requires checked + [x] <= mid
    requires NoDup(checked) ==> NoDup(mid)
    requires StripAll(mid[|checked| + 1..]) == DescendantIds(node)
    requires node.None? ==> StripDomain(x) == ""
    requires node.Some? ==> node.value.id == StripDomain(x)
    requires AllCovered(env, OptionIds(node), mid)
    requires opts.interfaces ==> AllBuild(env, mid[|checked|..])
    ensures checked <= r.checked
    ensures NoDup(checked) ==> NoDup(r.checked)
    ensures r.outcome.Success? ==> StripAll(r.checked[|checked|..]) == SubtreeIds(r.outcome.value)
    ensures mid <= r.checked
    ensures r.outcome.Success? ==> |r.outcome.value| > 0 && r.outcome.value[0] == node
    ensures r.outcome.Success? ==> forall y :: y in names && y != "" ==> y in r.checked
    ensures r.outcome.Failure? <==> opts.interfaces && !AllBuild(env, r.checked[|checked|..])
    ensures r.outcome.Success? ==> AllCovered(env, SubtreeIds(r.outcome.value), r.checked)
    decreases |u - Elems(checked)|, 0, |names|, 0
  {
    RestShrinks(u, checked, x, mid);
    var rest := CrawlChildren(env, opts, u, names, mid);
    PrefixTrans(checked, checked + [x], mid);
    PrefixTrans(checked, mid, rest.checked);
    RestBuilds(env, opts, checked, mid, rest);
    match rest.outcome
    case Failure(e) => Crawls(Failure(e), rest.checked)
    case Success(ns) =>
      ChildStep(checked, x, node, mid, ns, rest.checked);
      ChildCovered(env, node, mid, ns, rest.checked);
      Crawls(Success([node] + ns), rest.checked)
  }

  /** The crawl of a fresh child leaves less of the universe unvisited. */
  lemma RestShrinks(u: set<string>, checked: seq<string>, x: string, mid: seq<string>)
    requires x in u && x !in checked && checked + [x] <= mid
    ensures |u - Elems(mid)| < |u - Elems(checked)|
  {
    AppendShrinks(u, checked, x);
    ExtendShrinks(u, checked + [x], mid);
  }

  /** A crawled child, covered when its crawl ended, stays covered while its
      siblings are crawled. */
  lemma ChildCovered(env: Env, node: Option<Node>, mid: seq<string>, ns: seq<Option<Node>>, last: seq<string>)
    requires AllCovered(env, OptionIds(node), mid) && mid <= last
    requires AllCovered(env, SubtreeIds(ns), last)
    ensures AllCovered(env, SubtreeIds([node] + ns), last)
  {
    CoveredGrows(env, OptionIds(node), mid, last);
    assert ([node] + ns)[1..] == ns;
  }

  /** The bookkeeping of one crawled child: what it appended, stripped, is
      its own ids; the siblings' additions follow. */
  lemma ChildStep(checked: seq<string>, x: string, node: Option<Node>, mid: seq<string>, ns: seq<Option<Node>>, last: seq<string>)
    requires checked + [x] <= mid && mid <= last
    requires StripAll(mid[|checked| + 1..]) == DescendantIds(node)
    requires node.None? ==> StripDomain(x) == ""
    requires node.Some? ==> node.value.id == StripDomain(x)
    requires StripAll(last[|mid|..]) == SubtreeIds(ns)
    ensures StripAll(last[|checked|..]) == SubtreeIds([node] + ns)
  {
    assert last[|checked|..] == [x] + mid[|checked| + 1..] + last[|mid|..];
    StripAllAppend([x] + mid[|checked| + 1..], last[|mid|..]);
    StripAllAppend([x], mid[|checked| + 1..]);
    assert StripAll([x]) == [StripDomain(x)];
    assert OptionIds(node) == [StripDomain(x)] + DescendantIds(node);
    assert ([node] + ns)[1..] == ns;
    assert SubtreeIds([node] + ns) == OptionIds(node) + SubtreeIds(ns);
  }
}

=== FILE: seqs.dfy ===
/** Facts about the visited lists the crawlers thread through their recursion. */
module Seqs {

  /** No element occurs twice. */
  ghost predicate NoDup<T>(s: seq<T>)
  {
    forall i, j :: 0 <= i < j < |s| ==> s[i] != s[j]
  }

  ghost function Elems<T>(s: seq<T>): set<T>
  {
    set x | x in s
  }

  /** Appending a fresh element keeps a list duplicate-free. */
  lemma AppendFresh<T>(s: seq<T>, x: T)
    ensures NoDup(s) && x !in s ==> NoDup(s + [x])
  {
  }

  lemma {:induction false} SubsetSize<T>(a: set<T>, b: set<T>)
    requires a <= b
    ensures |a| <= |b|
  {
    assert b == a + (b - a);
  }

  /** Extending the visited list never enlarges the part of `u` still unvisited. */
  lemma ExtendShrinks<T>(u: set<T>, s: seq<T>, t: seq<T>)
    requires s <= t
    ensures |u - Elems(t)| <= |u - Elems(s)|
  {
    assert forall x :: x in s ==> x in t by {
      forall x | x in s ensures x in t {
        var i :| 0 <= i < |s| && s[i] == x;
        assert t[i] == x;
      }
    }
    SubsetSize(u - Elems(t), u - Elems(s));
  }

  /** Visiting an unvisited element of `u` strictly shrinks what is left. */
  lemma AppendShrinks<T>(u: set<T>, s: seq<T>, x: T)
    requires x in u && x !in s
    ensures |u - Elems(s + [x])| < |u - Elems(s)|
  {
    assert Elems(s + [x]) == Elems(s) + {x};
    assert u - Elems(s + [x]) == (u - Elems(s)) - {x};
  }

  /** The tail of a duplicate-free list is duplicate-free and disjoint from its head. */
  lemma NoDupSplit<T>(a: seq<T>, b: seq<T>)
    requires NoDup(a + b)
    ensures NoDup(b)
    ensures forall x :: x in b ==> x !in a
  {
    assert forall j :: 0 <= j < |b| ==> (a + b)[|a| + j] == b[j];
    assert forall i :: 0 <= i < |a| ==> (a + b)[i] == a[i];
  }

  /** An extension of an extension is an extension. */
  lemma PrefixTrans<T>(a: seq<T>, b: seq<T>, c: seq<T>)
    requires a <= b && b <= c
    ensures a <= c
  {
    assert c[..|a|] == b[..|a|];
  }

  /** What an extension adds after position `k` is what the prefix had after
      `k` followed by what the extension added. */
  lemma SliceSplit<T>(a: seq<T>, b: seq<T>, k: nat)
    requires a <= b && k <= |a|
    ensures b[k..] == a[k..] + b[|a|..]
  {
    assert b == a + b[|a|..];
  }
}

=== FILE: snmp.dfy ===
/** The SNMP transport, reduced to the oracles the crawlers consult, and the
    OID configuration file (`oid.json`) as an immutable value. */
module Snmp {
  import opened Wrappers

  /** What the network answers. `get` is the value an SNMP GET leaves in the
      varbind (`None` when the agent sends nothing), `walk` the varbinds of a
      subtree walk as (tag, value) pairs, `resolvable` whether DNS resolves the
      name, `responds` the outcome of the reachability probe. */
  datatype Agent = Agent(
    resolvable: string -> bool,
    responds: string -> bool,
    get: (string, string) -> Option<string>,
    walk: (string, string) -> seq<(string, string)>)

  /** The OID categories the code reads from `oid.json`: `standard`, the
      three `if` templates, `lldp`'s `remote_sysnames` prefix and the
      `device` table of family-specific categories. */
  datatype Config = Config(
    standard: map<string, string>,
    interfaceNames: string,
    interfaceDescs: string,
    interfaceSpeeds: string,
    remoteSysnames: string,
    device: map<string, map<string, string>>)

  /** Everything one crawl consults. `searchFuel` bounds the downward parent
      interface search, which the Python code leaves unbounded. */
  datatype Env = Env(agent: Agent, cfg: Config, searchFuel: nat)

  /** A single GET: nothing for an unresolvable host, and only a non-empty
      value counts as an answer. */
  function Get(a: Agent, host: string, oid: string): (r: Option<string>)
    ensures r.Some? ==> a.resolvable(host) && r.value != "" && a.get(host, oid) == r
    ensures a.resolvable(host) && a.get(host, oid).Some? && a.get(host, oid).value != "" ==> r.Some?
  {
    if !a.resolvable(host) then None
    else match a.get(host, oid)
      case Some(v) => if v != "" then Some(v) else None
      case None => None
  }

  /** A subtree walk: nothing for an unresolvable host or an empty subtree,
      otherwise every varbind the walk produced. */
  function Walk(a: Agent, host: string, prefix: string): (r: Option<seq<(string, string)>>)
    ensures r.Some? <==> a.resolvable(host) && |a.walk(host, prefix)| > 0
    ensures r.Some? ==> r.value == a.walk(host, prefix)
  {
    if a.resolvable(host) && |a.walk(host, prefix)| > 0 then Some(a.walk(host, prefix)) else None
  }

  /** Opening a session (`snmp.Connection`) raises `HostnameError` exactly when
      the name does not resolve. */
  predicate Configures(a: Agent, host: string)
  {
    a.resolvable(host)
  }

  /** Every neighbour name any LLDP walk can report lies in the finite set `u`:
      the network has finitely many system names. */
  ghost predicate Closed(env: Env, u: set<string>)
  {
    forall h: string, i: int :: 0 <= i < |env.agent.walk(h, env.cfg.remoteSysnames)| ==>
      env.agent.walk(h, env.cfg.remoteSysnames)[i].1 in u
  }
}

=== FILE: text.dfy ===
/** The string operations the Python code relies on: `split`, `in`, `lower`/`upper`,
    `int()` and `str()` on decimal numbers. Characters are ASCII-folded only, as
    Python 2 byte strings are. */
module Text {
  import opened Wrappers

  /** Python's `str.split(sep)` with an explicit one-character separator: the
      parts between separators, empty parts included; there is always one part. */
  function Split(s: string, sep: char): (parts: seq<string>)
    ensures |parts| >= 1
    ensures forall i :: 0 <= i < |parts| ==> sep !in parts[i]
    ensures Join(parts, sep) == s
    decreases |s|
  {
    if sep !in s then [s]
    else
      var i := IndexOf(s, sep);
      [s[..i]] + Split(s[i + 1..], sep)
  }

  /** The parts glued back together with `sep` between neighbours. */
  function Join(parts: seq<string>, sep: char): string
  {
    if |parts| == 0 then ""
    else if |parts| == 1 then parts[0]
    else parts[0] + [sep] + Join(parts[1..], sep)
  }

  /** Position of the first occurrence of `c`. */
  function IndexOf(s: string, c: char): (i: nat)
    requires c in s
    ensures i < |s| && s[i] == c && c !in s[..i]
  {
    if s[0] == c then 0 else 1 + IndexOf(s[1..], c)
  }

  /** Splitting is the inverse of joining parts that do not contain the separator. */
  lemma {:induction false} SplitJoin(parts: seq<string>, sep: char)
    requires |parts| >= 1
    requires forall i :: 0 <= i < |parts| ==> sep !in parts[i]
    ensures Split(Join(parts, sep), sep) == parts
    decreases |parts|
  {
    if |parts| == 1 {
    } else {
      var s := Join(parts, sep);
      assert s == parts[0] + [sep] + Join(parts[1..], sep);
      assert sep in s by { assert s[|parts[0]|] == sep; }
      var i := IndexOf(s, sep);
      assert forall j :: 0 <= j < |parts[0]| ==> s[j] == parts[0][j];
      assert i >= |parts[0]|;
      assert s[..i] == parts[0];
      assert s[i + 1..] == Join(parts[1..], sep);
      SplitJoin(parts[1..], sep);
    }
  }

  /** `s.split(sep)[0]`: everything before the first `sep`, or all of `s`. */
  function FirstField(s: string, sep: char): (r: string)
    ensures sep !in r
    ensures |r| <= |s| && s[..|r|] == r
    ensures |r| == |s| || s[|r|] == sep
  {
    Split(s, sep)[0]
  }

  /** The first field of a word followed by the separator is that word. */
  lemma FirstFieldOfWord(word: string, sep: char, rest: string)
    requires sep !in word
    ensures FirstField(word + [sep] + rest, sep) == word
  {
    var s := word + [sep] + rest;
    var w := FirstField(s, sep);
    assert s[|word|] == sep;
    assert forall i :: 0 <= i < |word| ==> s[i] == word[i];
  }

  /** `host.split('.')[0]`: a host name without its domain. */
  function StripDomain(host: string): (r: string)
    ensures '.' !in r
    ensures |r| <= |host| && host[..|r|] == r
    ensures |r| == |host| || host[|r|] == '.'
    ensures '.' !in host ==> r == host
  {
    FirstField(host, '.')
  }

  /** Python's `sub in s` for strings: `sub` occurs contiguously in `s`. */
  predicate Contains(s: string, sub: string)
    decreases |s|
  {
    (|sub| <= |s| && s[..|sub|] == sub) || (|s| > 0 && Contains(s[1..], sub))
  }

  /** A string cannot contain one with a character it lacks. */
  lemma {:induction false} MissingCharNotContained(s: string, sub: string, c: char)
    requires c in sub && c !in s
    ensures !Contains(s, sub)
    decreases |s|
  {
    if |sub| <= |s| {
      var i :| 0 <= i < |sub| && sub[i] == c;
      assert s[..|sub|][i] != sub[i];
    }
    if |s| > 0 {
      MissingCharNotContained(s[1..], sub, c);
    }
  }

  function LowerChar(c: char): char
  {
    if 'A' <= c <= 'Z' then (c as int + 32) as char else c
  }

  function UpperChar(c: char): char
  {
    if 'a' <= c <= 'z' then (c as int - 32) as char else c
  }

  /** `s.lower()` on an ASCII byte string. */
  function Lower(s: string): (r: string)
    ensures |r| == |s|
    ensures forall i :: 0 <= i < |s| ==> r[i] == LowerChar(s[i])
  {
    seq(|s|, i requires 0 <= i < |s| => LowerChar(s[i]))
  }

  /** `s.upper()` on an ASCII byte string. */
  function Upper(s: string): (r: string)
    ensures |r| == |s|
    ensures forall i :: 0 <= i < |s| ==> r[i] == UpperChar(s[i])
  {
    seq(|s|, i requires 0 <= i < |s| => UpperChar(s[i]))
  }

  /** Folding to lower case leaves no upper-case letter and is idempotent. */
  lemma LowerIsLower(s: string)
    ensures forall i :: 0 <= i < |s| ==> !('A' <= Lower(s)[i] <= 'Z')
    ensures Lower(Lower(s)) == Lower(s)
  {
  }

  /** Folding to upper case forgets the case of the input. */
  lemma UpperIgnoresCase(s: string)
    ensures Upper(Lower(s)) == Upper(s)
    ensures Upper(Upper(s)) == Upper(s)
  {
  }

  predicate IsDigit(c: char)
  {
    '0' <= c <= '9'
  }

  predicate AllDigits(s: string)
  {
    forall i :: 0 <= i < |s| ==> IsDigit(s[i])
  }

  /** The value of a string of decimal digits, most significant first. */
  function DigitsValue(s: string): nat
    requires AllDigits(s)
  {
    if |s| == 0 then 0
    else DigitsValue(s[..|s| - 1]) * 10 + (s[|s| - 1] as int - '0' as int)
  }

  /** Python's `int(s)` on the strings an SNMP agent returns for an interface
      number or a speed: a non-empty run of decimal digits parses, anything
      else raises `ValueError` (modelled as `None`). */
  function ParseNat(s: string): (r: Option<nat>)
    ensures r.Some? <==> |s| > 0 && AllDigits(s)
  {
    if |s| > 0 && AllDigits(s) then Some(DigitsValue(s)) else None
  }

  function DigitChar(d: nat): (c: char)
    requires d < 10
    ensures IsDigit(c) && c as int - '0' as int == d
  {
    ('0' as int + d) as char
  }

  /** Python's `str(n)` for a natural number. */
  function NatToString(n: nat): (s: string)
    ensures |s| > 0 && AllDigits(s)
  {
    if n < 10 then [DigitChar(n)] else NatToString(n / 10) + [DigitChar(n % 10)]
  }

  /** Python's `str(i)` for any integer: a leading '-' for negative values. */
  function IntToString(i: int): (s: string)
    ensures |s| > 0
    ensures i >= 0 ==> AllDigits(s)
    ensures i < 0 ==> s[0] == '-' && AllDigits(s[1..])
  {
    if i < 0 then "-" + NatToString(-i) else NatToString(i)
  }

  /** `int(str(n)) == n`. */
  lemma {:induction false} ParseNatToString(n: nat)
    ensures ParseNat(NatToString(n)) == Some(n)
    ensures DigitsValue(NatToString(n)) == n
  {
    var s := NatToString(n);
    if n < 10 {
      assert s[..|s| - 1] == "";
      assert DigitsValue(s) == n;
    } else {
      ParseNatToString(n / 10);
      assert s[..|s| - 1] == NatToString(n / 10);
      assert s[|s| - 1] as int - '0' as int == n % 10;
    }
  }

  /** The characters Python's argument-less `str.split()` separates on:
      space, tab, newline, vertical tab, form feed and carriage return. */
  predicate IsSpace(c: char)
  {
    c == ' ' || '\t' <= c <= '\r'
  }

  predicate IsWord(w: string)
  {
    |w| > 0 && forall i :: 0 <= i < |w| ==> !IsSpace(w[i])
  }

  /** Length of the longest prefix of `s` without white space. */
  function WordLength(s: string): (k: nat)
    ensures k <= |s|
    ensures forall i :: 0 <= i < k ==> !IsSpace(s[i])
    ensures k == |s| || IsSpace(s[k])
  {
    if |s| == 0 || IsSpace(s[0]) then 0 else 1 + WordLength(s[1..])
  }

  /** Every character of `s` that is not white space, in order. */
  function NonSpace(s: string): string
  {
    if |s| == 0 then ""
    else if IsSpace(s[0]) then NonSpace(s[1..])
    else [s[0]] + NonSpace(s[1..])
  }

  function Concat(ws: seq<string>): string
  {
    if |ws| == 0 then "" else ws[0] + Concat(ws[1..])
  }

  /** Python's `s.split()`: the maximal runs of non-white-space characters. */
  function Words(s: string): (ws: seq<string>)
    ensures forall i :: 0 <= i < |ws| ==> IsWord(ws[i])
    ensures Concat(ws) == NonSpace(s)
    decreases |s|
  {
    if |s| == 0 then []
    else if IsSpace(s[0]) then Words(s[1..])
    else
      var k := WordLength(s);
      NonSpacePrefix(s, k);
      [s[..k]] + Words(s[k..])
  }

  /** Splitting at a point where the prefix holds no white space. */
  lemma {:induction false} NonSpacePrefix(s: string, k: nat)
    requires k <= |s|
    requires forall i :: 0 <= i < k ==> !IsSpace(s[i])
    ensures NonSpace(s) == s[..k] + NonSpace(s[k..])
    decreases k
  {
    if k > 0 {
      NonSpacePrefix(s[1..], k - 1);
      assert s[1..][k - 1..] == s[k..];
    }
  }

  /** A white-space character divides the input: the words before it, then
      the words after it. */
  lemma {:induction false} WordsSplitAt(a: string, c: char, b: string)
    requires IsSpace(c)
    ensures Words(a + [c] + b) == Words(a) + Words(b)
    decreases |a|
  {
    var s := a + [c] + b;
    if |a| == 0 {
      assert s[1..] == b;
    } else if IsSpace(a[0]) {
      assert s[1..] == a[1..] + [c] + b;
      WordsSplitAt(a[1..], c, b);
    } else {
      var k := WordLength(a);
      assert s == a + ([c] + b);
      WordLengthWithin(a, [c] + b);
      assert s[..k] == a[..k];
      assert s[k..] == a[k..] + [c] + b;
      WordsSplitAt(a[k..], c, b);
    }
  }

  /** A run without white space is a single word. */
  lemma WordsOfWord(w: string)
    requires IsWord(w)
    ensures Words(w) == [w]
  {
    WordLengthOfPrefix(w, "");
    assert w + "" == w;
  }

  /** A word that ends before the end of `a`, or at white space just after
      it, is not lengthened by what follows. */
  lemma {:induction false} WordLengthWithin(a: string, t: string)
    requires WordLength(a) < |a| || (|t| > 0 && IsSpace(t[0]))
    ensures WordLength(a + t) == WordLength(a)
    decreases |a|
  {
    if |a| == 0 {
      assert a + t == t;
    } else if !IsSpace(a[0]) {
      assert (a + t)[1..] == a[1..] + t;
      WordLengthWithin(a[1..], t);
    }
  }

  /** Words separated by single spaces. */
  function Unwords(ws: seq<string>): string
  {
    if |ws| == 0 then "" else if |ws| == 1 then ws[0] else ws[0] + " " + Unwords(ws[1..])
  }

  /** Splitting on white space undoes joining words with single spaces. */
  lemma {:induction false} WordsUnwords(ws: seq<string>)
    requires forall i :: 0 <= i < |ws| ==> IsWord(ws[i])
    ensures Words(Unwords(ws)) == ws
    decreases |ws|
  {
    if |ws| == 0 {
    } else {
      var s := Unwords(ws);
      var w := ws[0];
      var rest := if |ws| == 1 then "" else " " + Unwords(ws[1..]);
      assert s == w + rest;
      assert IsWord(w);
      assert !IsSpace(s[0]);
      WordLengthOfPrefix(w, rest);
      assert s[..|w|] == w;
      assert s[|w|..] == rest;
      if |ws| == 1 {
      } else {
        assert Words(rest) == Words(Unwords(ws[1..]));
        WordsUnwords(ws[1..]);
      }
    }
  }

  lemma {:induction false} WordLengthOfPrefix(w: string, rest: string)
    requires forall i :: 0 <= i < |w| ==> !IsSpace(w[i])
    requires |rest| == 0 || IsSpace(rest[0])
    ensures WordLength(w + rest) == |w|
    decreases |w|
  {
    if |w| > 0 {
      assert (w + rest)[1..] == w[1..] + rest;
      WordLengthOfPrefix(w[1..], rest);
    } else {
      assert w + rest == rest;
    }
  }
}

=== FILE: wrappers.dfy ===
/** Failure-carrying values shared by the whole model. */
module Wrappers {

  /** An optional value: Python's `None` versus a present value. */
  datatype Option<+T> = None | Some(value: T)

  /** The Python exceptions that escape from the modelled code paths. */
  datatype Exception =
    | IndexError         // `split('.')[-2]` on a string without a '.'
    | ValueError         // `int(...)` on a string that is not a decimal number
    | UnboundLocalError  // reading a local that was never assigned
    | AttributeError     // calling `.keys()` on `None`
    | TypeError          // `str in int`: a substring test on a number

  /** Either the value a call returns or the exception it raises. */
  datatype Result<+T> = Success(value: T) | Failure(error: Exception)
}
